=== FILE: README.md ===
# pure-gen: template interpolation and name composition

A Dafny model of two modules of the pure-gen fake-data generator.

- **`fake(str)`** (`src/modules/fake.js`) interpolates `{{module.method(args)}}` tags.
  - It finds the first `{{` and the first `}}`, and takes the token between them.
  - It cuts an optional `(...)` parameter group out of the token and splits the rest on `.` into module and method.
  - It rejects an unknown module or method.
  - It turns the parameters into an argument list: none, comma-separated strings, one string, or a JSON value.
  - It calls the generator and replaces the first `{{token}}` with the result.
  - It then recurses on the rewritten string until no delimiter is left.
- **`pure.name`** (`src/modules/name.js`) picks first names, last names, prefixes, suffixes, genders and job titles from the word lists of the active locale.
  - Gendered lists are used where the locale has them.
  - `findName` draws a form (prefix, suffix or plain) and one gender, and uses that gender for the first name, the last name and the prefix.

Files:

- `strings.dfy` (module `JsStrings`) models the JavaScript string operations the code relies on:
  - `search` / `indexOf` for a literal pattern;
  - `substr`;
  - `replace` with a string pattern;
  - `split` on one character, and its inverse, a join.
- `fake.dfy` (module `Interpolation`) models the tag parser, the argument dispatch and the rewriting recursion.
  - The generator registry `pure[module][method]` is an abstract map from names to functions over argument lists and a generator state.
  - The recursion is written once around an abstract step (`Iterate`). `Fake` instantiates it with the step of `fake`.
  - The recursion carries a fuel bound, because it need not terminate when a generator returns braces or the string has a stray `}}`.
- `template.dfy` (module `Template`) gives a reference semantics for well-formed templates.
  - A well-formed template is literal text and `{{body}}` tags. The literals and the generators' outputs have no brace. A tag body has no `}}` and does not end in `}`, so single braces, as in a JSON-object parameter, are allowed.
  - For these, `fake` is proved equal to a plain left-to-right expansion that makes one generator call per tag, in order.
- `random.dfy` (module `Random`) models the random engine as the name generators see it.
  - `number(max)` yields a value in `[0, max]`.
  - `arrayElement(xs)` yields some `xs[i]`.
  - The engine is an abstract source `src`, and the draws made so far are threaded through the generators as a trace, so the draw order can be stated.
- `name.dfy` (module `Name`) models the generators of `name.js` over a locale record.
  - The record has two views: `pure.definitions.name` and `pure.locales[pure.locale].name`.
  - The source reads both views, in different places.

## Model

| member | source | states |
|---|---|---|
| Interpolation.Fake | src/modules/fake.js:22-38 | a non-string or empty input fails with "string parameter is required!"; a non-empty string with neither `{{` nor `}}` is returned unchanged, with no generator called |
| Interpolation.Iterate | src/modules/fake.js:22-95 | the recursion refuses the empty string at every level; a successful result is non-empty and took at most `fuel` rewritings; with no rewriting, the input itself and the initial state are returned |
| Interpolation.IterateEndsDone | src/modules/fake.js:35-38 | the recursion stops only on a string the step leaves alone |
| Interpolation.FakeResultPlain | src/modules/fake.js:35-38 | a successful `fake` result is non-empty and contains neither `{{` nor `}}` |
| Interpolation.MessageInjective | src/modules/fake.js:57-63 | for the dot-free names the parser produces, the error text determines the error: which check failed and the module and method names it reports |
| Interpolation.FirstToken | src/modules/fake.js:32-42 | when the first `{{` comes before the first `}}`, the token is exactly the text between them |
| Interpolation.FirstTagReplaced | src/modules/fake.js:92 | replacing `{{token}}` hits the occurrence at the first `{{`, and everything before and after it is untouched |
| Interpolation.NextStep | src/modules/fake.js:32-95 | a step on a resolvable first tag calls the generator it names and splices the output in place of that tag, leaving the rest of the string as it was |
| Interpolation.StuckStep | src/modules/fake.js:42-63 | a step whose first tag does not resolve fails with the resolution's error |
| Interpolation.MisplacedClose | src/modules/fake.js:32-58 | a first `}}` before or right after the first `{{` (or no `}}` at all) gives the empty token, which is reported as the invalid module "" |
| Interpolation.FindGroupLeftmost | src/modules/fake.js:46-47 | the group search finds a match of `\(([^)]+)\)` and no match starts earlier |
| Interpolation.ParametersOfFirstGroup | src/modules/fake.js:46-52 | the leftmost `(x)`, with `x` non-empty and free of `)`, is cut out of the method text and `x` becomes the parameter string |
| Interpolation.NoGroupNoParameters | src/modules/fake.js:46-52 | without such a group the method text is kept and the parameters are empty |
| Interpolation.ExtractParameters | src/modules/fake.js:46-52 | no parameters means the method text is kept; which group is cut out is stated by `Interpolation.ParametersOfFirstGroup` and `Interpolation.NoGroupNoParameters` |
| Interpolation.ParseToken | src/modules/fake.js:43-55 | the module and method names taken from `split('.')` never contain a dot; the full parse is stated by `Interpolation.ParseTokenText`, `Interpolation.ParseModuleOnly` and `Interpolation.ParseExtraDots` |
| Interpolation.Resolve | src/modules/fake.js:55-89 | a resolved token names a registered generator and carries that generator's output on the call's arguments; an unresolved one fails only with "Invalid module" or, for a registered module, "Invalid method", with dot-free names; per tag body this is stated by `Interpolation.ResolveTokenText` |
| Interpolation.Rewrite | src/modules/fake.js:31-92 | one pass of the body of `fake` finishes exactly when the string has neither `{{` nor `}}`; the other outcomes are stated by `Interpolation.NextStep`, `Interpolation.StuckStep`, `Interpolation.FirstToken`, `Interpolation.FirstTagReplaced`, `Interpolation.MisplacedClose` and `Interpolation.StrayCloseStep` |
| Interpolation.ParseTokenText | src/modules/fake.js:43-55 | parsing the tag body `m.f(p)` (or `m.f` for empty `p`) gives back `m`, `f` and `p`: a round trip with the tag-body printer, for any parameter text `p` without `)`, `{{` or `}}`, JSON objects such as `{"a":1}` included |
| Interpolation.ParseModuleOnly | src/modules/fake.js:55-61 | a body without a dot names the method "undefined" (`parts[1]` is `undefined`) |
| Interpolation.ParseExtraDots | src/modules/fake.js:55 | text after a second dot is ignored: `m.f.x` asks for `m.f` |
| Interpolation.ResolveTokenText | src/modules/fake.js:55-89 | for any parameter text `p`, JSON objects included, an unknown module is reported before the method is looked at, then an unknown method of a known module; otherwise `pure[m][f]` is called with the arguments of `p` |
| Interpolation.ResolveObjectParameter | src/modules/fake.js:68-89 | a tag `m.f({q})` with a JSON-object parameter calls `pure[m][f]` with the one argument `JSON.parse` makes of `{q}` |
| Interpolation.ResolveModuleOnly | src/modules/fake.js:55-63 | a bare module name reports "Invalid method: m.undefined" unless the module has that property |
| Interpolation.ParsesAsJson | src/modules/fake.js:72-80 | the JSON decision holds exactly when the first parameter character is `[` or `{`; `verif2` and `verif3` add nothing |
| Interpolation.Arguments | src/modules/fake.js:71-89 | empty parameters give no arguments, JSON text gives one parsed argument, and otherwise the comma-free string pieces joined by `,` give back the parameters |
| Interpolation.LoopNeverOk | src/modules/fake.js:95 | when every step on a non-empty string reports a rewriting that leaves the string unchanged, the recursion runs out of any fuel |
| Interpolation.FakeStrayClose | src/modules/fake.js:32-95 | a string with no `{{` but a `}}` such that the text from index 1 up to it names a registered generator, like `xname.firstName}}`, never comes to an end: the token is read and the generator called, but `{{token}}` is not in the string, so `replace` leaves it as it was and `fake` recurses on the same string |
| JsStrings.IndexFrom | src/modules/fake.js:32-33 | the search result is the first occurrence at or after the start, or -1 when there is none |
| JsStrings.Substr | src/modules/fake.js:42 | `substr` takes the requested slice when it lies in the string, and gives "" for a non-positive length |
| JsStrings.ReplaceFirst | src/modules/fake.js:43 | `replace` with a string pattern leaves a string without the pattern alone, and otherwise changes its length by the difference between replacement and pattern; its contents are stated by `JsStrings.ReplaceFirstAt` |
| JsStrings.ReplaceFirstAt | src/modules/fake.js:92 | `replace` with a string pattern swaps the first occurrence of the pattern for the replacement and keeps everything before and after it |
| JsStrings.Split | src/modules/fake.js:55 | `split` on one character gives one more piece than there are separators, pieces without the separator, and pieces that join back to the input |
| JsStrings.SplitJoin | src/modules/fake.js:55 | splitting a join of separator-free pieces gives the pieces back |
| JsStrings.JoinInjective | src/modules/fake.js:86 | joining separator-free pieces loses nothing: equal joins mean equal pieces |
| Template.FakeExpandsTemplate | src/modules/fake.js:22-95 | on a well-formed template (tags may carry JSON-object parameters) with brace-free generator outputs and enough fuel, `fake` equals the left-to-right expansion that replaces each tag by its generator's output |
| Template.FakeTemplateCalls | src/modules/fake.js:92-95 | on such a template `fake` makes exactly one generator call per tag, in template order, returns text with no brace, and never runs out of fuel |
| Template.ExpandCalls | src/modules/fake.js:55-95 | the reference expansion calls the generators the tag bodies ask for, in order |
| Template.ExpandFrom | src/modules/fake.js:92-95 | the reference expansion makes one call per tag and keeps brace-free text brace-free |
| Template.FakeLookupErrors | src/modules/fake.js:55-63 | `fake` on a string whose first tag asks for `m.f(p)`, for any parameter text `p`, fails with "Invalid module: m" for an unknown module and with "Invalid method: m.f" for an unknown method of a known module, whatever follows the tag |
| Template.TokenTextTagBody | src/modules/fake.js:32-43 | a tag body `m.f(p)` with parameter text `p`, a JSON object say, has no `}}` and does not end in `}`, so the first `}}` after its `{{` is its own and it may stand in a well-formed template |
| Template.RewriterStepsTags | src/modules/fake.js:31-92 | on a string with no brace the step of `fake` does nothing; on brace-free text, a tag whose body has no `}}` and does not end in `}`, and any rest, it resolves that tag and splices its output in |
| Random.Number | __test__/random.spec.js:10-24 | `number(max)` lies in `[0, max]` and is recorded as the next draw |
| Random.ArrayElement | __test__/random.spec.js:184-194 | `arrayElement` fails exactly on a missing or empty list, draws once with `number(|xs| - 1)` otherwise, and returns the element at the drawn index |
| Name.FirstName | src/modules/name.js:16-41 | without both gendered lists it picks from `first_name`; with them, a numeric gender picks male for 0 and female otherwise; a non-numeric gender uses `first_name` if present without drawing a gender, and otherwise draws one with `number(1)` |
| Name.LastName | src/modules/name.js:53-70 | without both gendered lists it picks from `last_name`; with them it draws a gender only when none is given and picks male for 0, female otherwise, from the current locale's lists |
| Name.Prefix | src/modules/name.js:151-165 | as for `lastName`, over the prefix lists |
| Name.Suffix | src/modules/name.js:176 | a suffix is a member of the suffix list, from one draw |
| Name.Gender | src/modules/name.js:139 | a gender is a member of the gender list, from one draw |
| Name.NameFor | src/modules/name.js:93-104 | first and last name come from the lists of the same gender `def`; form 0 adds a prefix of that gender, form 1 a suffix, and other forms nothing; earlier draws are kept |
| Name.FindName | src/modules/name.js:82-115 | the first draw is `number(8)` and gives the form; the result is `undefined` exactly when the form is 0 or 1 and the prefix or suffix drawn for it is empty; otherwise it is "prefix first last" for form 0, "first last suffix" for form 1 and "first last" for the others, with the draws and words of `Name.FindNameParts` |
| Name.FindNameParts | src/modules/name.js:83-94 | the form selector is the first draw, `number(8)`; without a numeric gender the gender is the second, `number(1)`, and a given number is used as it is; first and last name share that gender |
| Name.Compose | src/modules/name.js:95-114 | the result is undefined exactly for forms 0 and 1 with an empty prefix or suffix, with no fallback to the plain form |
| Name.ComposeWords | src/modules/name.js:95-112 | the name is "prefix first last", "first last suffix" or "first last", by form: it splits on spaces back into those words |
| Name.LastNameViewsDiffer | src/modules/name.js:55-67 | when only `pure.definitions.name` has the gendered last-name lists, a numeric gender makes `lastName` pick from a list the current locale does not have, which fails in the model (`NoElements`) |
| Name.Title | src/modules/name.js:187-193 | `title` fails exactly when a title list is missing or empty, and otherwise makes three draws |
| Name.TitleDraws | src/modules/name.js:187-193 | the three draws after the earlier ones are `number(|list| - 1)` over the descriptor, level and job lists, and the title joins the entries at the drawn indices with spaces |
| Name.TitleWords | src/modules/name.js:187-193 | a title is three words, from the descriptor, level and job lists in that order |
| Name.JobDescriptor | src/modules/name.js:204 | a member of the title descriptors |
| Name.JobArea | src/modules/name.js:215 | a member of the title levels |
| Name.JobType | src/modules/name.js:226 | a member of the title jobs |
| Name.JobTitle | src/modules/name.js:126-128 | `jobTitle` draws and returns exactly what `title` does |

## Left out

- The random engine (a Mersenne Twister) and its module `random.js` are not part of this model.
  - `number` and `arrayElement` carry only their range and membership contracts.
  - The reduction `src(i) % (max + 1)` is a stand-in for the engine's own.
  - `arrayElement` on a missing or empty list fails without drawing (`NoElements`). This is a modelling choice: what `random.js` does with such a list is not part of this model.
- `JSON.parse` is opaque: a JSON argument carries the parameter text, and parse errors are not modelled.
- The special `$` patterns of `String.prototype.replace` are not modelled: the replacement text is inserted literally.
- `str.search('{{')` takes a regular expression. Both patterns contain only literal braces, so it is modelled as a literal search.
- Generators are abstract functions from an argument list and a state to a text and the next state.
  - Non-string results (`undefined`, numbers) and the `this` binding are not modelled.
  - Exceptions thrown inside a generator are not modelled.
  - The registry holds only functions. A property of `pure[module]` that is not a function would make the call throw a `TypeError`; that case is not modelled.
- A failing name generator (`Fail`) carries no trace: the draws made before the throw are not kept.
- Strings are sequences of Dafny characters. JavaScript strings are sequences of UTF-16 code units, so a character outside the Basic Multilingual Plane counts as one position here and as two in the source. Positions found by `search` and `indexOf` and the slices of `substr` differ accordingly on text with such characters.
- Iterate: the recursion carries a fuel bound, and `OutOfFuel` is an error of the model only. It never arises on a well-formed template given one unit of fuel per tag (`Template.FakeTemplateCalls`). A generator that keeps producing braces can make `fake` recurse forever. So can a string with a stray `}}` and no `{{`, such as `xname.firstName}}`: the text from index 1 to the `}}` is taken as the token, the generator is called, and `replace` finds no `{{token}}` to rewrite (`Interpolation.FakeStrayClose`).
- Name.FirstName: a numeric gender is an integer. Non-integer and NaN numbers are not modelled; every non-zero integer selects the female list, as `def === 0` does.
- Name.LastName: the same integer-only numeric gender; `lastName(1.5)`, which picks the female lists in the source, cannot be expressed.
- Name.Prefix: the same integer-only numeric gender.
- Name.NameFor: the gender `def` it passes on is an integer.
- Name.FindNameParts: a given numeric gender is an integer; `findName(0.5)`, which uses the female lists in the source, cannot be expressed.
- Name.FindName: the same integer-only numeric gender as `Name.FindNameParts`.
- Name.NameFor: `findName` passes `def` to `suffix`, which ignores it; the model does not pass it.
- Title: a missing `title` record makes every title generator throw (`NoTitle`). The JavaScript `TypeError` text is not modelled.
- Locale loading, the word lists themselves, and all other `pure` modules (dates, images, phone numbers) are not part of this model.

=== FILE: fake.dfy ===
/**
 * `pure.fake(str)`: interpolates `{{module.method(args)}}` tags with the
 * output of generator functions found in a registry, one tag per step,
 * recursing on the rewritten string until no tag delimiter is left.
 *
 * Generators are abstract: each is a function from its argument list and a
 * generator state (the random stream, say) to a text and the next state.
 * The recursion, which need not terminate in general, carries a fuel bound.
 */
module Interpolation {
  import opened JsStrings

  /** An argument as `fake` passes it to a generator: a string, or the value
      `JSON.parse` produced from the given text (kept opaque). */
  datatype Arg = StringArg(text: string) | JsonArg(source: string)

  /** A generator's output text and the state after the call. */
  datatype Generated<S> = Generated(text: string, state: S)

  /** `pure[module][method]`, for the properties that hold functions. */
  type Registry<!S> = map<string, map<string, (seq<Arg>, S) -> Generated<S>>>

  /** The value passed as `str`. */
  datatype Input = StringInput(s: string) | NonString

  datatype FakeError =
    | StringRequired
    | InvalidModule(moduleName: string)
    | InvalidMethod(moduleName: string, methodName: string)
    | OutOfFuel   // model only: the recursion was cut short

  /** The message of the `Error` thrown for each failure. */
  function Message(e: FakeError): (m: string)
    ensures e.InvalidModule? ==> m == "Invalid module: " + e.moduleName
    ensures e.InvalidMethod? ==> m == "Invalid method: " + e.moduleName + "." + e.methodName
  {
    match e
    case StringRequired => "string parameter is required!"
    case InvalidModule(m) => "Invalid module: " + m
    case InvalidMethod(m, f) => "Invalid method: " + m + "." + f
    case OutOfFuel => "recursion bound reached"
  }

  /** The names an error carries contain no dot, as names taken from a
      tag always do (`ParseToken`). */
  predicate DotFreeNames(e: FakeError)
  {
    && (e.InvalidModule? ==> '.' !in e.moduleName)
    && (e.InvalidMethod? ==> '.' !in e.moduleName && '.' !in e.methodName)
  }

  /** Characters that tell the kinds of message apart. */
  lemma MessageMarks(e: FakeError)
    ensures |Message(e)| > 9
    ensures e.StringRequired? ==> Message(e)[0] == 's'
    ensures e.OutOfFuel? ==> Message(e)[0] == 'r'
    ensures e.InvalidModule? ==> Message(e)[0] == 'I' && Message(e)[9] == 'o'
    ensures e.InvalidMethod? ==> Message(e)[0] == 'I' && Message(e)[9] == 'e'
  {
  }

  /** The thrown message tells the failures apart: different errors with
      dot-free names have different messages, so the module and method a
      failed lookup names can be read back from the message. */
  lemma MessageInjective(e1: FakeError, e2: FakeError)
    requires DotFreeNames(e1) && DotFreeNames(e2)
    ensures Message(e1) == Message(e2) ==> e1 == e2
  {
    MessageMarks(e1);
    MessageMarks(e2);
    var m1, m2 := Message(e1), Message(e2);
    if m1 == m2 && e1.InvalidModule? && e2.InvalidModule? {
      assert e1.moduleName == m1[16..] && e2.moduleName == m2[16..];
    } else if m1 == m2 && e1.InvalidMethod? && e2.InvalidMethod? {
      assert m1[16..] == e1.moduleName + "." + e1.methodName;
      assert m2[16..] == e2.moduleName + "." + e2.methodName;
      SplitModuleMethod(e1.moduleName, e1.methodName);
      SplitModuleMethod(e2.moduleName, e2.methodName);
    }
  }

  datatype Result<T> = Ok(value: T) | Err(error: FakeError)

  /** One generator call made while interpolating. */
  datatype Invocation = Invocation(moduleName: string, methodName: string, args: seq<Arg>)

  /** The interpolated text, the final generator state and, in order, the
      generator calls that produced it. */
  datatype Expansion<S> = Expansion(text: string, state: S, calls: seq<Invocation>)

  /** A tag body, taken apart. */
  datatype Call = Call(moduleName: string, methodName: string, parameters: string)

  // ---------------------------------------------------------------------
  // The parameter group /\(([^)]+)\)/

  /** The regular expression `\(([^)]+)\)` matches `s[i..j+1]`: an opening
      parenthesis, at least one character that is not `)`, then `)`. */
  predicate GroupAt(s: string, i: int, j: int)
  {
    0 <= i && i + 1 < j < |s| && s[i] == '(' && s[j] == ')'
    && forall k :: i < k < j ==> s[k] != ')'
  }

  /** The first `)` at or after `k`, or `|s|`. */
  function NextClose(s: string, k: nat): (r: nat)
    requires k <= |s|
    ensures k <= r <= |s|
    ensures r < |s| ==> s[r] == ')'
    decreases |s| - k
  {
    if k == |s| || s[k] == ')' then k else NextClose(s, k + 1)
  }

  /** No `)` lies between `k` and `NextClose(s, k)`. */
  lemma {:induction false} NextCloseFirst(s: string, k: nat)
    requires k <= |s|
    ensures forall m :: k <= m < NextClose(s, k) ==> s[m] != ')'
    decreases |s| - k
  {
    if k < |s| && s[k] != ')' {
      NextCloseFirst(s, k + 1);
    }
  }

  datatype Group = NoGroup | Group(open: nat, close: nat)

  /** The leftmost match of the parameter group at or after `from`. */
  function FindGroup(s: string, from: nat): (g: Group)
    ensures g.Group? ==> from <= g.open && g.open + 1 < g.close < |s|
    decreases |s| - from
  {
    if from >= |s| then NoGroup
    else if s[from] == '(' && from + 1 < |s| && NextClose(s, from + 1) > from + 1 && NextClose(s, from + 1) < |s| then
      Group(from, NextClose(s, from + 1))
    else
      FindGroup(s, from + 1)
  }

  /** `FindGroup` finds a match, and no match starts earlier. */
  lemma {:induction false} FindGroupLeftmost(s: string, from: nat)
    ensures var g := FindGroup(s, from);
            && (g.Group? ==> GroupAt(s, g.open, g.close))
            && (forall i, j :: from <= i && (g.NoGroup? || i < g.open) ==> !GroupAt(s, i, j))
    decreases |s| - from
  {
    if from < |s| {
      if s[from] == '(' && from + 1 < |s| {
        NextCloseFirst(s, from + 1);
      }
      if !(s[from] == '(' && from + 1 < |s| && NextClose(s, from + 1) > from + 1 && NextClose(s, from + 1) < |s|) {
        assert forall j :: !GroupAt(s, from, j) by {
          if s[from] == '(' && from + 1 < |s| {
            var c := NextClose(s, from + 1);
            assert forall j :: GroupAt(s, from, j) ==> c <= j && c != from + 1;
          }
        }
        FindGroupLeftmost(s, from + 1);
      }
    }
  }

  /** The parameter match `/\(([^)]+)\)/`: the first parameter group is cut out of the method text and
      its contents become the parameter string; without one the parameters
      are empty. Returns the method text and the parameters. */
  function ExtractParameters(mtext: string): (r: (string, string))
    ensures r.1 == "" ==> r.0 == mtext
  {
    match FindGroup(mtext, 0)
    case NoGroup => (mtext, "")
    case Group(i, j) => (mtext[..i] + mtext[j + 1..], mtext[i + 1..j])
  }

  /** The leftmost `(x)` with non-empty `x` free of `)` is what is cut out. */
  lemma ParametersOfFirstGroup(mtext: string, i: int, j: int)
    requires GroupAt(mtext, i, j)
    requires forall i', j' :: 0 <= i' < i ==> !GroupAt(mtext, i', j')
    ensures ExtractParameters(mtext) == (mtext[..i] + mtext[j + 1..], mtext[i + 1..j])
    ensures |mtext[i + 1..j]| > 0 && ')' !in mtext[i + 1..j]
  {
    FindGroupLeftmost(mtext, 0);
    var g := FindGroup(mtext, 0);
    assert g.Group? && g.open == i;
  }

  /** Without such a group the method text is kept and the parameters are
      empty. */
  lemma NoGroupNoParameters(mtext: string)
    requires forall i, j :: !GroupAt(mtext, i, j)
    ensures ExtractParameters(mtext) == (mtext, "")
  {
    FindGroupLeftmost(mtext, 0);
  }

  // ---------------------------------------------------------------------
  // Tag bodies and arguments

  /** Reading a token up to the registry lookup: the delimiters left in the token
      are dropped, the parameter group is cut out, and the rest is split on
      `.` into module and method (`parts[1]` is `undefined` without a dot,
      which as a property key reads "undefined"). */
  function ParseToken(token: string): (c: Call)
    ensures '.' !in c.moduleName && '.' !in c.methodName
  {
    var mtext := ReplaceFirst(ReplaceFirst(token, "}}", ""), "{{", "");
    var (name, parameters) := ExtractParameters(mtext);
    var parts := Split(name, '.');
    assert '.' !in parts[0];
    assert |parts| > 1 ==> '.' !in parts[1];
    Call(parts[0], if |parts| > 1 then parts[1] else "undefined", parameters)
  }

  /** A name without a dot splits into itself alone. */
  lemma SplitName(m: string)
    requires '.' !in m
    ensures Split(m, '.') == [m]
  {
    SplitJoin([m], '.');
  }

  /** `m.f` splits into module and method. */
  lemma SplitModuleMethod(m: string, f: string)
    requires '.' !in m && '.' !in f
    ensures Split(m + "." + f, '.') == [m, f]
  {
    assert Join([f], '.') == f;
    assert Join([m, f], '.') == m + "." + f;
    SplitJoin([m, f], '.');
  }

  /** With more dots, the module is everything before the first and the
      method everything between the first and the second; the rest is
      ignored. */
  lemma SplitExtraDots(m: string, f: string, t: string)
    requires '.' !in m && '.' !in f
    ensures |Split(m + "." + f + "." + t, '.')| > 2
    ensures Split(m + "." + f + "." + t, '.')[..2] == [m, f]
  {
    var ts := Split(t, '.');
    var parts := [m, f] + ts;
    assert parts[1..] == [f] + ts && ([f] + ts)[1..] == ts;
    assert Join([f] + ts, '.') == f + "." + t;
    assert Join(parts, '.') == m + "." + f + "." + t;
    assert forall i :: 0 <= i < |parts| ==> '.' !in parts[i];
    SplitJoin(parts, '.');
  }

  /** `s` contains none of the characters in `cs`. */
  predicate Avoids(s: string, cs: set<char>)
  {
    forall k :: 0 <= k < |s| ==> s[k] !in cs
  }

  /** The tag body that asks for `m.f` with the parameter string `p`. */
  function TokenText(m: string, f: string, p: string): string
  {
    m + "." + f + (if p == "" then "" else "(" + p + ")")
  }

  /** Parameter text a tag can carry and get back: no `)`, which would end
      the group early, and no tag delimiter `{{` or `}}`, which `fake` would
      take for the tag's own. Single braces, as in a JSON object, are fine. */
  predicate ParameterText(p: string)
  {
    Avoids(p, {')'}) && NoDelimiters(p)
  }

  /** Text without braces is parameter text when it has no `)`. */
  lemma BracelessParameters(p: string)
    requires Avoids(p, {')', '{', '}'})
    ensures ParameterText(p)
  {
    AbsentFirstChar(p, "{{");
    AbsentFirstChar(p, "}}");
  }

  /** A tag body built from brace-free names and parameter text has no tag
      delimiter in it. */
  lemma TokenTextNoDelimiters(m: string, f: string, p: string)
    requires Avoids(m, {'.', '(', ')', '{', '}'}) && Avoids(f, {'.', '(', ')', '{', '}'})
    requires ParameterText(p)
    ensures NoDelimiters(TokenText(m, f, p))
  {
    var name := m + "." + f;
    assert Avoids(name, {'{', '}'});
    if p == "" {
      assert TokenText(m, f, p) == name;
      AbsentFirstChar(name, "{{");
      AbsentFirstChar(name, "}}");
    } else {
      assert TokenText(m, f, p) == (name + "(") + p + ")";
      assert '{' !in name + "(" && '}' !in name + "(";
      PairAbsent(name + "(", p, ")", "{{");
      PairAbsent(name + "(", p, ")", "}}");
    }
  }

  /** A token without braces is left as it is by the removal of the
      delimiters from the token. */
  lemma BracelessToken(token: string)
    requires Avoids(token, {'{', '}'})
    ensures ReplaceFirst(ReplaceFirst(token, "}}", ""), "{{", "") == token
  {
    AbsentFirstChar(token, "}}");
    AbsentFirstChar(token, "{{");
  }

  /** A token naming a module alone asks for the method "undefined". */
  lemma ParseModuleOnly(m: string)
    requires Avoids(m, {'.', '(', ')', '{', '}'})
    ensures ParseToken(m) == Call(m, "undefined", "")
  {
    BracelessToken(m);
    NoGroupNoParameters(m);
    SplitName(m);
  }

  /** Dots after the method name are ignored. */
  lemma ParseExtraDots(m: string, f: string, t: string)
    requires Avoids(m, {'.', '(', ')', '{', '}'}) && Avoids(f, {'.', '(', ')', '{', '}'})
    requires Avoids(t, {'(', ')', '{', '}'})
    ensures ParseToken(m + "." + f + "." + t) == Call(m, f, "")
  {
    var token := m + "." + f + "." + t;
    assert Avoids(token, {'(', ')', '{', '}'});
    BracelessToken(token);
    NoGroupNoParameters(token);
    SplitExtraDots(m, f, t);
  }

  /** Parsing the tag body `TokenText(m, f, p)` gives `m`, `f` and `p`
      back, when the names are free of dots, parentheses and braces and the
      parameters are parameter text (JSON objects included). */
  lemma ParseTokenText(m: string, f: string, p: string)
    requires Avoids(m, {'.', '(', ')', '{', '}'}) && Avoids(f, {'.', '(', ')', '{', '}'})
    requires ParameterText(p)
    ensures ParseToken(TokenText(m, f, p)) == Call(m, f, p)
  {
    var name := m + "." + f;
    var token := TokenText(m, f, p);
    assert Avoids(name, {'(', ')', '{', '}'});
    TokenTextNoDelimiters(m, f, p);
    assert ReplaceFirst(ReplaceFirst(token, "}}", ""), "{{", "") == token;
    if p == "" {
      assert token == name;
      NoGroupNoParameters(name);
    } else {
      var i, j := |name|, |token| - 1;
      assert token == name + "(" + p + ")";
      assert GroupAt(token, i, j);
      assert token[..i] + token[j + 1..] == name && token[i + 1..j] == p;
      ParametersOfFirstGroup(token, i, j);
    }
    SplitModuleMethod(m, f);
  }

  /** The lookup and the call on the tag body `TokenText(m, f, p)`: an
      unknown module `m` is reported first, then an unknown method `f` of a
      known module; otherwise `pure[m][f]` is called with the arguments of
      `p`. */
  lemma ResolveTokenText<S>(reg: Registry<S>, m: string, f: string, p: string, st: S)
    requires Avoids(m, {'.', '(', ')', '{', '}'}) && Avoids(f, {'.', '(', ')', '{', '}'})
    requires ParameterText(p)
    ensures m !in reg ==> Resolve(reg, TokenText(m, f, p), st) == Unresolved(InvalidModule(m))
    ensures m in reg && f !in reg[m] ==> Resolve(reg, TokenText(m, f, p), st) == Unresolved(InvalidMethod(m, f))
    ensures m in reg && f in reg[m] ==>
              Resolve(reg, TokenText(m, f, p), st) == Resolved(Invocation(m, f, Arguments(p)), reg[m][f](Arguments(p), st))
  {
    ParseTokenText(m, f, p);
  }

  /** An object literal `{q}` with no brace or `)` inside is parameter
      text. */
  lemma ObjectParameterText(q: string)
    requires Avoids(q, {')', '{', '}'})
    ensures ParameterText("{" + q + "}")
  {
    var p := "{" + q + "}";
    forall i | 0 <= i
      ensures !OccursAt(p, "{{", i) && !OccursAt(p, "}}", i)
    {
      OccursPair(p, "{{", i);
      OccursPair(p, "}}", i);
      if i + 1 < |p| {
        if i + 1 <= |q| {
          assert p[i + 1] == q[i];
        } else if i > 0 {
          assert p[i] == q[i - 1];
        }
      }
    }
    assert Avoids(p, {')'}) by {
      forall k | 0 < k < |p| - 1
        ensures p[k] != ')'
      {
        assert p[k] == q[k - 1];
      }
    }
  }

  /** A tag with a JSON-object parameter, `{{m.f({q})}}`, calls `pure[m][f]`
      with the one argument `JSON.parse` makes of `{q}`. */
  lemma ResolveObjectParameter<S>(reg: Registry<S>, m: string, f: string, q: string, st: S)
    requires Avoids(m, {'.', '(', ')', '{', '}'}) && Avoids(f, {'.', '(', ')', '{', '}'})
    requires Avoids(q, {')', '{', '}'})
    requires m in reg && f in reg[m]
    ensures var p := "{" + q + "}";
            Resolve(reg, TokenText(m, f, p), st) == Resolved(Invocation(m, f, [JsonArg(p)]), reg[m][f]([JsonArg(p)], st))
  {
    ObjectParameterText(q);
    ResolveTokenText(reg, m, f, "{" + q + "}", st);
  }

  /** A tag naming a module alone looks up the method "undefined", so a
      known module reports "Invalid method: m.undefined" unless it has a
      property of that name. */
  lemma ResolveModuleOnly<S>(reg: Registry<S>, m: string, st: S)
    requires Avoids(m, {'.', '(', ')', '{', '}'})
    ensures m !in reg ==> Resolve(reg, m, st) == Unresolved(InvalidModule(m))
    ensures m in reg && "undefined" !in reg[m] ==> Resolve(reg, m, st) == Unresolved(InvalidMethod(m, "undefined"))
  {
    ParseModuleOnly(m);
  }

  /** The JSON test: `verif1 || verif2 || verif3` decides whether the
      parameters go through `JSON.parse`; as `verif2` and `verif3` both
      imply `verif1`, only the first character matters. */
  function ParsesAsJson(parameters: string): (b: bool)
    ensures b <==> |parameters| > 0 && (parameters[0] == '[' || parameters[0] == '{')
  {
    var verif1 := |parameters| > 0 && (parameters[0] == '[' || parameters[0] == '{');
    var verif2 := ',' in parameters && verif1;
    var verif3 := parameters != "" && verif1;
    verif1 || verif2 || verif3
  }

  function StringArgs(parts: seq<string>): (args: seq<Arg>)
    ensures |args| == |parts|
    ensures forall i :: 0 <= i < |parts| ==> args[i] == StringArg(parts[i])
  {
    if |parts| == 0 then [] else [StringArg(parts[0])] + StringArgs(parts[1..])
  }

  /** The argument list a generator is called with. */
  function Arguments(parameters: string): (args: seq<Arg>)
    ensures parameters == "" ==> args == []
    ensures ParsesAsJson(parameters) ==> args == [JsonArg(parameters)]
    ensures !ParsesAsJson(parameters) && parameters != "" ==>
              |args| == CountChar(parameters, ',') + 1
              && (forall i :: 0 <= i < |args| ==> args[i].StringArg? && ',' !in args[i].text)
              && Join(Texts(args), ',') == parameters
  {
    if ParsesAsJson(parameters) then [JsonArg(parameters)]
    else if parameters == "" then []
    else if ',' in parameters then
      var parts := Split(parameters, ',');
      assert Texts(StringArgs(parts)) == parts;
      StringArgs(parts)
    else
      assert Split(parameters, ',') == [parameters] by {
        SplitJoin([parameters], ',');
      }
      [StringArg(parameters)]
  }

  /** The texts of string arguments. */
  function Texts(args: seq<Arg>): (ts: seq<string>)
    requires forall i :: 0 <= i < |args| ==> args[i].StringArg?
    ensures |ts| == |args|
    ensures forall i :: 0 <= i < |args| ==> ts[i] == args[i].text
  {
    if |args| == 0 then [] else [args[0].text] + Texts(args[1..])
  }

  // ---------------------------------------------------------------------
  // The interpolation

  /** Neither delimiter occurs. */
  predicate NoDelimiters(s: string)
  {
    IndexOf(s, "{{") == -1 && IndexOf(s, "}}") == -1
  }

  /** What a token resolves to: an error, or the generator call it asks
      for together with the generator's output. */
  datatype Resolution<S> = Unresolved(error: FakeError) | Resolved(call: Invocation, out: Generated<S>)

  /** The generator call a token asks for, whether or not the registry
      has that generator. */
  function CallOf(token: string): Invocation
  {
    var c := ParseToken(token);
    Invocation(c.moduleName, c.methodName, Arguments(c.parameters))
  }

  /** One token: look up the generator the token names and
      call it with the token's arguments. The module is looked up before the
      method, so an unknown module is reported even when the method name is
      bad too. */
  function Resolve<S>(reg: Registry<S>, token: string, st: S): (r: Resolution<S>)
    ensures r.Resolved? ==> var c := r.call;
              c.moduleName in reg && c.methodName in reg[c.moduleName]
              && r.out == reg[c.moduleName][c.methodName](c.args, st)
    ensures r.Unresolved? ==> DotFreeNames(r.error) && (r.error.InvalidModule? || r.error.InvalidMethod?)
    ensures r.Unresolved? && r.error.InvalidMethod? ==> r.error.moduleName in reg
  {
    var c := CallOf(token);
    if c.moduleName !in reg then Unresolved(InvalidModule(c.moduleName))
    else if c.methodName !in reg[c.moduleName] then Unresolved(InvalidMethod(c.moduleName, c.methodName))
    else Resolved(c, reg[c.moduleName][c.methodName](c.args, st))
  }

  /** The outcome of one pass through the body of `fake` up to the
      recursive call: nothing left to do, an error, or the rewritten string
      with the call that produced it. */
  datatype Step<S> = Done | Stuck(error: FakeError) | Next(text: string, state: S, call: Invocation)

  /** How tokens resolve against a registry, as a function value. */
  function ResolverOf<S>(reg: Registry<S>): (string, S) -> Resolution<S>
  {
    (token: string, st: S) => Resolve(reg, token, st)
  }

  /** One rewriting of a non-empty string: without delimiters there is
      nothing to do; otherwise the token between the first
      `{{` and the first `}}` is resolved with `resolve` (`ResolverOf` in
      `fake`) and the first `{{token}}` is replaced by the
      generator's output. */
  function Rewrite<S>(resolve: (string, S) -> Resolution<S>, str: string, st: S): (r: Step<S>)
    ensures r.Done? <==> NoDelimiters(str)
  {
    if NoDelimiters(str) then Done
    else
      var start := IndexOf(str, "{{");
      var end := IndexOf(str, "}}");
      var token := Substr(str, start + 2, end - start - 2);
      match resolve(token, st)
      case Unresolved(e) => Stuck(e)
      case Resolved(call, out) => Next(ReplaceFirst(str, "{{" + token + "}}", out.text), out.state, call)
  }

  /** The rewriting step of `fake`, as a function value. */
  function Rewriter<S>(reg: Registry<S>): (string, S) -> Step<S>
  {
    (str: string, st: S) => Rewrite(ResolverOf(reg), str, st)
  }

  /** Prepends a generator call to a successful expansion. */
  function After<S>(call: Invocation, r: Result<Expansion<S>>): (r': Result<Expansion<S>>)
    ensures r.Err? ==> r' == r
    ensures r.Ok? ==> r'.Ok? && r'.value.text == r.value.text && r'.value.state == r.value.state
                      && r'.value.calls == [call] + r.value.calls
  {
    match r
    case Err(e) => Err(e)
    case Ok(x) => Ok(Expansion(x.text, x.state, [call] + x.calls))
  }

  /** The recursion of `fake` around a given step: the empty
      string and non-strings are refused, a string the step
      leaves alone is the result, and a rewritten string is handed to
      `fake` again. At most `fuel` rewritings are made. */
  function Iterate<S>(step: (string, S) -> Step<S>, input: Input, st: S, fuel: nat): (r: Result<Expansion<S>>)
    ensures (input.NonString? || input.s == "") ==> r == Err(StringRequired)
    ensures r.Ok? ==> r.value.text != "" && |r.value.calls| <= fuel
    ensures r.Ok? && r.value.calls == [] ==> input == StringInput(r.value.text) && r.value.state == st
    decreases fuel
  {
    match input
    case NonString => Err(StringRequired)
    case StringInput(str) =>
      if |str| == 0 then Err(StringRequired)
      else
        match step(str, st)
        case Done => Ok(Expansion(str, st, []))
        case Stuck(e) => Err(e)
        case Next(res, st', call) =>
          if fuel == 0 then Err(OutOfFuel) else After(call, Iterate(step, StringInput(res), st', fuel - 1))
  }

  /** A successful iteration ends on a string, in a state, that the step
      leaves alone. */
  lemma {:induction false} IterateEndsDone<S>(step: (string, S) -> Step<S>, input: Input, st: S, fuel: nat)
    ensures var r := Iterate(step, input, st, fuel);
            r.Ok? ==> step(r.value.text, r.value.state) == Done
    decreases fuel
  {
    if input.StringInput? && input.s != "" && fuel > 0 {
      var x := step(input.s, st);
      if x.Next? {
        IterateEndsDone(step, StringInput(x.text), x.state, fuel - 1);
      }
    }
  }

  /** `fake(str)`, with at most `fuel` recursive steps. */
  function Fake<S>(reg: Registry<S>, input: Input, st: S, fuel: nat): (r: Result<Expansion<S>>)
    ensures (input.NonString? || input.s == "") ==> r == Err(StringRequired)
    ensures input.StringInput? && input.s != "" && NoDelimiters(input.s) ==> r == Ok(Expansion(input.s, st, []))
  {
    Iterate(Rewriter(reg), input, st, fuel)
  }

  /** What `fake` returns has no tag delimiter left. */
  lemma FakeResultPlain<S>(reg: Registry<S>, input: Input, st: S, fuel: nat)
    ensures var r := Fake(reg, input, st, fuel);
            r.Ok? ==> r.value.text != "" && NoDelimiters(r.value.text)
  {
    IterateEndsDone(Rewriter(reg), input, st, fuel);
  }

  /** The first `{{`, the token after it and the first `}}` after that make
      up the first occurrence of `{{token}}`; replacing it keeps everything
      before and after. */
  lemma FirstTagReplaced(str: string, start: int, end: int, rep: string)
    requires start == IndexOf(str, "{{") && end == IndexOf(str, "}}")
    requires 0 <= start && start + 2 <= end
    ensures ReplaceFirst(str, "{{" + str[start + 2..end] + "}}", rep) == str[..start] + rep + str[end + 2..]
  {
    var pat := "{{" + str[start + 2..end] + "}}";
    assert OccursAt(str, pat, start) by {
      assert str[start..start + 2] == "{{";
      assert str[end..end + 2] == "}}";
      assert str[start..end + 2] == str[start..start + 2] + str[start + 2..end] + str[end..end + 2];
    }
    assert forall i :: 0 <= i < start ==> !OccursAt(str, pat, i) by {
      assert pat[..2] == "{{";
      forall i | 0 <= i < start && OccursAt(str, pat, i)
        ensures false
      {
        OccursPrefix(str, pat, 2, i);
      }
    }
    assert start + |pat| == end + 2;
    ReplaceFirstAt(str, pat, rep, start);
  }

  /** One step on a string whose first `{{` comes before its first `}}`
      when the text between them does not resolve: the step is stuck with
      the resolution's error. */
  lemma StuckStep<S>(resolve: (string, S) -> Resolution<S>, str: string, st: S, start: int, end: int, token: string)
    requires start == IndexOf(str, "{{") && end == IndexOf(str, "}}")
    requires 0 <= start && start + 2 <= end && str[start + 2..end] == token
    requires resolve(token, st).Unresolved?
    ensures Rewrite(resolve, str, st) == Stuck(resolve(token, st).error)
  {
    FirstToken(str, start, end);
  }

  /** One step on a string whose first `{{` comes before its first `}}`
      when the text between them resolves: the generator it names is
      called, and `{{token}}` at that first `{{` is replaced by the output,
      leaving the rest of the string as it was. */
  lemma NextStep<S>(resolve: (string, S) -> Resolution<S>, str: string, st: S, start: int, end: int, token: string)
    requires start == IndexOf(str, "{{") && end == IndexOf(str, "}}")
    requires 0 <= start && start + 2 <= end && str[start + 2..end] == token
    requires resolve(token, st).Resolved?
    ensures var res := resolve(token, st);
            Rewrite(resolve, str, st) == Next(str[..start] + res.out.text + str[end + 2..], res.out.state, res.call)
  {
    FirstToken(str, start, end);
    FirstTagReplaced(str, start, end, resolve(token, st).out.text);
  }

  /** When the first `}}` does not come after the first `{{` with room for
      a token (it comes before it, follows it directly or is missing), the
      token is empty and names the module `""`, which a
      registry without that key reports as an invalid module. */
  lemma MisplacedClose<S>(reg: Registry<S>, str: string, st: S)
    requires IndexOf(str, "{{") >= 0 && IndexOf(str, "}}") <= IndexOf(str, "{{") + 2
    requires "" !in reg
    ensures Rewrite(ResolverOf(reg), str, st) == Stuck(InvalidModule(""))
  {
    ParseModuleOnly("");
  }

  /** Without any `{{` but with a `}}` at `end`, the token is taken from
      index 1 up to that `}}`; when it resolves, the generator is called,
      but `{{token}}` occurs nowhere, so the string comes back unchanged. */
  lemma StrayCloseStep<S>(resolve: (string, S) -> Resolution<S>, str: string, st: S, end: int, token: string)
    requires IndexOf(str, "{{") == -1 && end == IndexOf(str, "}}") && end >= 1
    requires str[1..end] == token
    requires resolve(token, st).Resolved?
    ensures Rewrite(resolve, str, st) == Next(str, resolve(token, st).out.state, resolve(token, st).call)
  {
    assert Substr(str, 1, end - 1) == token;
    var pat := "{{" + token + "}}";
    assert forall i :: !OccursAt(str, pat, i) by {
      assert pat[..2] == "{{";
      forall i | OccursAt(str, pat, i)
        ensures false
      {
        OccursPrefix(str, pat, 2, i);
      }
    }
  }

  /** A step that keeps rewriting a string into itself makes the recursion
      run until the fuel is gone, whatever the fuel. */
  lemma {:induction false} LoopNeverOk<S>(step: (string, S) -> Step<S>, str: string, st: S, fuel: nat)
    requires str != ""
    requires forall s :: step(str, s).Next? && step(str, s).text == str
    ensures Iterate(step, StringInput(str), st, fuel) == Err(OutOfFuel)
    decreases fuel
  {
    if fuel > 0 {
      LoopNeverOk(step, str, step(str, st).state, fuel - 1);
    }
  }

  /** A string with a `}}` but no `{{`, whose text from index 1 up to that
      `}}` names a registered generator (such as "xname.firstName}}"), is
      rewritten into itself at every step: the generator is called again
      and again and `fake` never returns. */
  lemma FakeStrayClose<S>(reg: Registry<S>, c: char, m: string, f: string, p: string, rest: string, st: S, fuel: nat)
    requires c != '{' && c != '}'
    requires Avoids(m, {'.', '(', ')', '{', '}'}) && Avoids(f, {'.', '(', ')', '{', '}'})
    requires Avoids(p, {')', '{', '}'}) && Avoids(rest, {'{'})
    requires m in reg && f in reg[m]
    ensures Fake(reg, StringInput([c] + TokenText(m, f, p) + "}}" + rest), st, fuel) == Err(OutOfFuel)
  {
    var body := TokenText(m, f, p);
    var str := [c] + body + "}}" + rest;
    BracelessParameters(p);
    var end := 1 + |body|;
    assert Avoids(body, {'{', '}'});
    assert str[1..end] == body;
    assert forall i :: 0 <= i < end ==> str[i] != '}' by {
      forall i | 0 < i < end
        ensures str[i] != '}'
      {
        assert str[i] == body[i - 1];
      }
    }
    assert forall i :: 0 <= i < |str| ==> str[i] != '{' by {
      forall i | end + 2 <= i < |str|
        ensures str[i] != '{'
      {
        assert str[i] == rest[i - end - 2];
      }
    }
    AbsentFirstChar(str, "{{");
    assert OccursAt(str, "}}", end) by {
      assert str[end..end + 2] == "}}";
    }
    NoEarlierOccurrence(str, "}}", end);
    IndexOfFirstOccurrence(str, "}}", end);
    forall s
      ensures Rewriter(reg)(str, s).Next? && Rewriter(reg)(str, s).text == str
    {
      ResolveTokenText(reg, m, f, p, s);
      StrayCloseStep(ResolverOf(reg), str, s, end, body);
    }
    LoopNeverOk(Rewriter(reg), str, st, fuel);
  }

  /** The token is the text between the first `{{` and the first `}}`. */
  lemma FirstToken(str: string, start: int, end: int)
    requires start == IndexOf(str, "{{") && end == IndexOf(str, "}}")
    requires 0 <= start && start + 2 <= end
    ensures Substr(str, start + 2, end - start - 2) == str[start + 2..end]
  {
    assert OccursAt(str, "}}", end);
  }
}

=== FILE: name.dfy ===
/**
 * `pure.name`: names, prefixes, suffixes, genders and job titles drawn from
 * the word lists of the active locale. Every generator threads the draw
 * trace of the random engine and may throw when a list it draws from is
 * missing.
 */
module Name {
  import opened JsStrings
  import opened Random

  /** The `title` record of a locale. */
  datatype TitleDefs = TitleDefs(descriptor: Option<seq<string>>, level: Option<seq<string>>, job: Option<seq<string>>)

  /** The `name` record of a locale; a missing list is `None`
      (`typeof ... === 'undefined'`). */
  datatype NameDefs = NameDefs(
    firstName: Option<seq<string>>,
    maleFirstName: Option<seq<string>>,
    femaleFirstName: Option<seq<string>>,
    lastName: Option<seq<string>>,
    maleLastName: Option<seq<string>>,
    femaleLastName: Option<seq<string>>,
    prefix: Option<seq<string>>,
    malePrefix: Option<seq<string>>,
    femalePrefix: Option<seq<string>>,
    suffix: Option<seq<string>>,
    gender: Option<seq<string>>,
    title: Option<TitleDefs>)

  /** The two views of the name lists the generators read:
      `pure.definitions.name` and `pure.locales[pure.locale].name`. */
  datatype Locale = Locale(definitions: NameDefs, current: NameDefs)

  /** The `gender` argument: a JavaScript number, or anything else
      (`undefined`, a string, ...). */
  datatype GenderArg = NotNumber | Numeric(n: int)

  /** Both gendered variants of a list are present. */
  predicate Gendered(male: Option<seq<string>>, female: Option<seq<string>>)
  {
    male.Some? && female.Some?
  }

  /** The list a gender selects: male for 0, female for any other number. */
  function ByGender(def: int, male: Option<seq<string>>, female: Option<seq<string>>): Option<seq<string>>
  {
    if def == 0 then male else female
  }

  /** `r` draws the gender with `number(1)` right after `t`, then picks one
      element of the list that gender selects. */
  predicate PicksByDrawnGender(r: Out<string>, t: seq<Draw>, male: Option<seq<string>>, female: Option<seq<string>>)
  {
    && (r.Fail? ==> Empty(male) || Empty(female))
    && (r.Out? ==>
          && |r.trace| == |t| + 2 && r.trace[..|t|] == t && r.trace[|t|].max == 1
          && In(r.value, ByGender(r.trace[|t|].value, male, female)))
  }

  /** Draws the gender with `number(1)`, then picks from the list it
      selects. */
  function PickByGender(src: nat -> nat, t: seq<Draw>, male: Option<seq<string>>, female: Option<seq<string>>): (r: Out<string>)
    ensures PicksByDrawnGender(r, t, male, female)
  {
    var (def, t1) := Number(src, t, 1);
    var r := ArrayElement(src, t1, ByGender(def, male, female));
    assert r.Out? ==> r.trace[..|t|] == r.trace[..|t1|][..|t|];
    r
  }

  /** `firstName(gender)`, reading `pure.definitions.name`. */
  function FirstName(defs: NameDefs, gender: GenderArg, src: nat -> nat, t: seq<Draw>): (r: Out<string>)
    ensures !Gendered(defs.maleFirstName, defs.femaleFirstName) ==> Picks(r, t, defs.firstName)
    ensures Gendered(defs.maleFirstName, defs.femaleFirstName) && gender.Numeric? ==>
              Picks(r, t, ByGender(gender.n, defs.maleFirstName, defs.femaleFirstName))
    ensures Gendered(defs.maleFirstName, defs.femaleFirstName) && gender.NotNumber? && defs.firstName.Some? ==>
              Picks(r, t, defs.firstName)
    ensures Gendered(defs.maleFirstName, defs.femaleFirstName) && gender.NotNumber? && defs.firstName.None? ==>
              PicksByDrawnGender(r, t, defs.maleFirstName, defs.femaleFirstName)
  {
    if Gendered(defs.maleFirstName, defs.femaleFirstName) then
      match gender
      case NotNumber =>
        if defs.firstName.None? then PickByGender(src, t, defs.maleFirstName, defs.femaleFirstName)
        else ArrayElement(src, t, defs.firstName)
      case Numeric(def) =>
        ArrayElement(src, t, ByGender(def, defs.maleFirstName, defs.femaleFirstName))
    else
      ArrayElement(src, t, defs.firstName)
  }

  /** The shape shared by `lastName` and `prefix`: the gendered variants are
      looked for in `pure.definitions.name`, but drawn from
      `pure.locales[pure.locale].name`; without them the plain list of
      `pure.definitions.name` is used. A gender is drawn only when none is
      given. */
  function GenderedPick(
    checkMale: Option<seq<string>>, checkFemale: Option<seq<string>>,
    male: Option<seq<string>>, female: Option<seq<string>>,
    plain: Option<seq<string>>,
    gender: GenderArg, src: nat -> nat, t: seq<Draw>): (r: Out<string>)
    ensures !Gendered(checkMale, checkFemale) ==> Picks(r, t, plain)
    ensures Gendered(checkMale, checkFemale) && gender.Numeric? ==> Picks(r, t, ByGender(gender.n, male, female))
    ensures Gendered(checkMale, checkFemale) && gender.NotNumber? ==> PicksByDrawnGender(r, t, male, female)
  {
    if Gendered(checkMale, checkFemale) then
      match gender
      case NotNumber => PickByGender(src, t, male, female)
      case Numeric(def) => ArrayElement(src, t, ByGender(def, male, female))
    else
      ArrayElement(src, t, plain)
  }

  /** `lastName(gender)`. */
  function LastName(loc: Locale, gender: GenderArg, src: nat -> nat, t: seq<Draw>): (r: Out<string>)
    ensures !Gendered(loc.definitions.maleLastName, loc.definitions.femaleLastName) ==> Picks(r, t, loc.definitions.lastName)
    ensures Gendered(loc.definitions.maleLastName, loc.definitions.femaleLastName) && gender.Numeric? ==>
              Picks(r, t, ByGender(gender.n, loc.current.maleLastName, loc.current.femaleLastName))
    ensures Gendered(loc.definitions.maleLastName, loc.definitions.femaleLastName) && gender.NotNumber? ==>
              PicksByDrawnGender(r, t, loc.current.maleLastName, loc.current.femaleLastName)
  {
    GenderedPick(loc.definitions.maleLastName, loc.definitions.femaleLastName,
                 loc.current.maleLastName, loc.current.femaleLastName,
                 loc.definitions.lastName, gender, src, t)
  }

  /** `prefix(gender)`. */
  function Prefix(loc: Locale, gender: GenderArg, src: nat -> nat, t: seq<Draw>): (r: Out<string>)
    ensures !Gendered(loc.definitions.malePrefix, loc.definitions.femalePrefix) ==> Picks(r, t, loc.definitions.prefix)
    ensures Gendered(loc.definitions.malePrefix, loc.definitions.femalePrefix) && gender.Numeric? ==>
              Picks(r, t, ByGender(gender.n, loc.current.malePrefix, loc.current.femalePrefix))
    ensures Gendered(loc.definitions.malePrefix, loc.definitions.femalePrefix) && gender.NotNumber? ==>
              PicksByDrawnGender(r, t, loc.current.malePrefix, loc.current.femalePrefix)
  {
    GenderedPick(loc.definitions.malePrefix, loc.definitions.femalePrefix,
                 loc.current.malePrefix, loc.current.femalePrefix,
                 loc.definitions.prefix, gender, src, t)
  }

  /** `suffix()`. */
  function Suffix(defs: NameDefs, src: nat -> nat, t: seq<Draw>): (r: Out<string>)
    ensures Picks(r, t, defs.suffix)
  {
    ArrayElement(src, t, defs.suffix)
  }

  /** `gender()`. */
  function Gender(defs: NameDefs, src: nat -> nat, t: seq<Draw>): (r: Out<string>)
    ensures Picks(r, t, defs.gender)
  {
    ArrayElement(src, t, defs.gender)
  }

  // ---------------------------------------------------------------------
  // findName

  /** What `findName` drew: the form selector `r`, the gender `def`, the
      first and last names and, for forms 0 and 1, the prefix or suffix
      (empty otherwise). */
  datatype NameParts = NameParts(form: nat, def: int, first: string, last: string, extra: string)

  /** The words of `findName`: the first and the last name for the gender
      `def`, then the prefix (form 0) or the suffix (form 1) for it. Earlier
      draws are kept. */
  function NameFor(loc: Locale, form: nat, def: int, src: nat -> nat, t: seq<Draw>): (r: Out<NameParts>)
    ensures r.Out? ==> Extends(t, r.trace) && r.value.form == form && r.value.def == def
    // first and last name share the gender `def`
    ensures r.Out? && Gendered(loc.definitions.maleFirstName, loc.definitions.femaleFirstName) ==>
              In(r.value.first, ByGender(def, loc.definitions.maleFirstName, loc.definitions.femaleFirstName))
    ensures r.Out? && !Gendered(loc.definitions.maleFirstName, loc.definitions.femaleFirstName) ==>
              In(r.value.first, loc.definitions.firstName)
    ensures r.Out? && Gendered(loc.definitions.maleLastName, loc.definitions.femaleLastName) ==>
              In(r.value.last, ByGender(def, loc.current.maleLastName, loc.current.femaleLastName))
    ensures r.Out? && !Gendered(loc.definitions.maleLastName, loc.definitions.femaleLastName) ==>
              In(r.value.last, loc.definitions.lastName)
    // a prefix of that gender for form 0, a suffix for form 1, nothing otherwise
    ensures r.Out? && form == 0 && Gendered(loc.definitions.malePrefix, loc.definitions.femalePrefix) ==>
              In(r.value.extra, ByGender(def, loc.current.malePrefix, loc.current.femalePrefix))
    ensures r.Out? && form == 0 && !Gendered(loc.definitions.malePrefix, loc.definitions.femalePrefix) ==>
              In(r.value.extra, loc.definitions.prefix)
    ensures r.Out? && form == 1 ==> In(r.value.extra, loc.definitions.suffix)
    ensures r.Out? && form >= 2 ==> r.value.extra == ""
  {
    match FirstName(loc.definitions, Numeric(def), src, t)
    case Fail(e) => Fail(e)
    case Out(first, t3) =>
      match LastName(loc, Numeric(def), src, t3)
      case Fail(e) => Fail(e)
      case Out(last, t4) =>
        assert Extends(t, t4) by { ExtendsTrans(t, t3, t4); }
        if form == 0 then
          match Prefix(loc, Numeric(def), src, t4)
          case Fail(e) => Fail(e)
          case Out(p, t5) =>
            assert Extends(t, t5) by { ExtendsTrans(t, t4, t5); }
            Out(NameParts(form, def, first, last, p), t5)
        else if form == 1 then
          match Suffix(loc.definitions, src, t4)
          case Fail(e) => Fail(e)
          case Out(x, t5) =>
            assert Extends(t, t5) by { ExtendsTrans(t, t4, t5); }
            Out(NameParts(form, def, first, last, x), t5)
        else
          Out(NameParts(form, def, first, last, ""), t4)
  }

  /** The draws of `findName`: it draws the form with `number(8)`
      first, then the gender with `number(1)` unless a number is given, and
      draws the rest of the name for that form and gender. */
  function FindNameParts(loc: Locale, gender: GenderArg, src: nat -> nat, t: seq<Draw>): (r: Out<NameParts>)
    ensures r.Out? ==> Extends(t, r.trace) && |r.trace| > |t| && r.trace[|t|] == Draw(8, r.value.form)
    ensures r.Out? && gender.NotNumber? ==>
              |r.trace| > |t| + 1 && 0 <= r.value.def <= 1 && r.trace[|t| + 1] == Draw(1, r.value.def)
    ensures r.Out? && gender.Numeric? ==> r.value.def == gender.n
    // first and last name share the gender `def`, drawn or given
    ensures r.Out? && Gendered(loc.definitions.maleFirstName, loc.definitions.femaleFirstName) ==>
              In(r.value.first, ByGender(r.value.def, loc.definitions.maleFirstName, loc.definitions.femaleFirstName))
    ensures r.Out? && Gendered(loc.definitions.maleLastName, loc.definitions.femaleLastName) ==>
              In(r.value.last, ByGender(r.value.def, loc.current.maleLastName, loc.current.femaleLastName))
  {
    var (form, t1) := Number(src, t, 8);
    var (def, t2) := match gender
                     case NotNumber => Number(src, t1, 1)
                     case Numeric(n) => (n, t1);
    var r := NameFor(loc, form, def, src, t2);
    assert r.Out? ==> Extends(t, r.trace) && r.trace[|t|] == t2[|t|] by {
      if r.Out? {
        ExtendsTrans(t, t2, r.trace);
        assert r.trace[|t|] == r.trace[..|t2|][|t|];
      }
    }
    assert r.Out? && gender.NotNumber? ==> r.trace[|t| + 1] == t2[|t| + 1] by {
      if r.Out? && gender.NotNumber? {
        assert r.trace[|t| + 1] == r.trace[..|t2|][|t| + 1];
      }
    }
    r
  }

  /** The name `findName` builds for each form. A falsy (empty) prefix or
      suffix leaves the result `undefined` (`None`); there is no fallback
      to the plain form. */
  function Compose(p: NameParts): (r: Option<string>)
    ensures r.None? <==> p.form <= 1 && p.extra == ""
  {
    if p.form == 0 then
      if p.extra != "" then Some(p.extra + " " + p.first + " " + p.last) else None
    else if p.form == 1 then
      if p.extra != "" then Some(p.first + " " + p.last + " " + p.extra) else None
    else
      Some(p.first + " " + p.last)
  }

  /** `findName(gender)`: the form is the first draw, `number(8)`, and the
      result is `undefined` exactly when that form asks for a prefix or a
      suffix and the one drawn is empty. */
  function FindName(loc: Locale, gender: GenderArg, src: nat -> nat, t: seq<Draw>): (r: Out<Option<string>>)
    ensures var q := FindNameParts(loc, gender, src, t);
            && (r.Fail? <==> q.Fail?)
            && (r.Out? ==> r.trace == q.trace && Extends(t, r.trace) && |r.trace| > |t|
                           && r.trace[|t|] == Draw(8, q.value.form)
                           && (r.value.None? <==> q.value.form <= 1 && q.value.extra == ""))
    // the name by form: "prefix first last", "first last suffix", "first last"
    ensures var q := FindNameParts(loc, gender, src, t);
            r.Out? && r.value.Some? ==>
              && (q.value.form == 0 ==> r.value.value == q.value.extra + " " + q.value.first + " " + q.value.last)
              && (q.value.form == 1 ==> r.value.value == q.value.first + " " + q.value.last + " " + q.value.extra)
              && (q.value.form >= 2 ==> r.value.value == q.value.first + " " + q.value.last)
  {
    match FindNameParts(loc, gender, src, t)
    case Fail(e) => Fail(e)
    case Out(p, t') => Out(Compose(p), t')
  }

  /** The name `findName` returns splits on spaces into the words it was
      built from, in the order of its form, when none of them contains a
      space. */
  lemma ComposeWords(p: NameParts)
    requires Compose(p).Some?
    requires ' ' !in p.first && ' ' !in p.last && ' ' !in p.extra
    ensures p.form == 0 ==> Split(Compose(p).value, ' ') == [p.extra, p.first, p.last]
    ensures p.form == 1 ==> Split(Compose(p).value, ' ') == [p.first, p.last, p.extra]
    ensures p.form >= 2 ==> Split(Compose(p).value, ' ') == [p.first, p.last]
  {
    if p.form == 0 {
      ThreeWords(p.extra, p.first, p.last);
    } else if p.form == 1 {
      ThreeWords(p.first, p.last, p.extra);
    } else {
      assert Join([p.last], ' ') == p.last;
      assert Join([p.first, p.last], ' ') == p.first + " " + p.last;
      SplitJoin([p.first, p.last], ' ');
    }
  }

  /** Three space-free words joined by spaces split back into them. */
  lemma ThreeWords(a: string, b: string, c: string)
    requires ' ' !in a && ' ' !in b && ' ' !in c
    ensures Split(a + " " + b + " " + c, ' ') == [a, b, c]
  {
    var words := [a, b, c];
    assert Join(words, ' ') == a + " " + b + " " + c by {
      assert words[1..] == [b, c] && [b, c][1..] == [c];
      assert Join([b, c], ' ') == b + " " + c;
      assert Join(words, ' ') == a + " " + (b + " " + c);
    }
    assert forall i :: 0 <= i < |words| ==> ' ' !in words[i] by {
      assert words[0] == a && words[1] == b && words[2] == c;
    }
    SplitJoin(words, ' ');
  }

  /** `lastName` checks for the gendered lists in `pure.definitions.name`
      but draws from `pure.locales[pure.locale].name`: when only the former
      has them, a numeric gender makes it throw. */
  lemma LastNameViewsDiffer(loc: Locale, n: int, src: nat -> nat, t: seq<Draw>)
    requires Gendered(loc.definitions.maleLastName, loc.definitions.femaleLastName)
    requires loc.current.maleLastName.None? && loc.current.femaleLastName.None?
    ensures LastName(loc, Numeric(n), src, t) == Fail(NoElements)
  {
  }

  // ---------------------------------------------------------------------
  // Titles

  /** `title()`: a descriptor, a level and a job, drawn in
      that order and joined by spaces. */
  function Title(defs: NameDefs, src: nat -> nat, t: seq<Draw>): (r: Out<string>)
    ensures defs.title.None? ==> r == Fail(NoTitle)
    ensures defs.title.Some? ==>
              (r.Fail? <==> Empty(defs.title.value.descriptor) || Empty(defs.title.value.level) || Empty(defs.title.value.job))
    ensures defs.title.Some? && r.Fail? ==> r.failure == NoElements
    ensures r.Out? ==> |r.trace| == |t| + 3 && r.trace[..|t|] == t
  {
    match defs.title
    case None => Fail(NoTitle)
    case Some(td) =>
      match ArrayElement(src, t, td.descriptor)
      case Fail(e) => Fail(e)
      case Out(d, t1) =>
        match ArrayElement(src, t1, td.level)
        case Fail(e) => Fail(e)
        case Out(l, t2) =>
          match ArrayElement(src, t2, td.job)
          case Fail(e) => Fail(e)
          case Out(j, t3) => Out(d + " " + l + " " + j, t3)
  }

  /** Which words a title is made of: the draws at positions `|t|`,
      `|t| + 1` and `|t| + 2` are `number(|list| - 1)` over the descriptor,
      level and job lists, and the title joins the entries they index. */
  lemma TitleDraws(defs: NameDefs, src: nat -> nat, t: seq<Draw>)
    requires defs.title.Some?
    ensures var r := Title(defs, src, t);
            var td := defs.title.value;
            r.Out? ==>
              && r.trace[|t|].max == |td.descriptor.value| - 1 && r.trace[|t|].value < |td.descriptor.value|
              && r.trace[|t| + 1].max == |td.level.value| - 1 && r.trace[|t| + 1].value < |td.level.value|
              && r.trace[|t| + 2].max == |td.job.value| - 1 && r.trace[|t| + 2].value < |td.job.value|
              && r.value == td.descriptor.value[r.trace[|t|].value] + " "
                            + td.level.value[r.trace[|t| + 1].value] + " "
                            + td.job.value[r.trace[|t| + 2].value]
  {
    var td := defs.title.value;
    var r := Title(defs, src, t);
    if r.Out? {
      var d := ArrayElement(src, t, td.descriptor);
      var l := ArrayElement(src, d.trace, td.level);
      var j := ArrayElement(src, l.trace, td.job);
      assert l.trace[..|d.trace|] == d.trace && j.trace[..|l.trace|] == l.trace;
      assert r.trace[|t|] == l.trace[|t|] == d.trace[|t|];
      assert r.trace[|t| + 1] == l.trace[|t| + 1];
    }
  }

  /** `jobDescriptor()`. */
  function JobDescriptor(defs: NameDefs, src: nat -> nat, t: seq<Draw>): (r: Out<string>)
    ensures defs.title.None? ==> r == Fail(NoTitle)
    ensures defs.title.Some? ==> Picks(r, t, defs.title.value.descriptor)
  {
    if defs.title.None? then Fail(NoTitle) else ArrayElement(src, t, defs.title.value.descriptor)
  }

  /** `jobArea()`: reads the title levels. */
  function JobArea(defs: NameDefs, src: nat -> nat, t: seq<Draw>): (r: Out<string>)
    ensures defs.title.None? ==> r == Fail(NoTitle)
    ensures defs.title.Some? ==> Picks(r, t, defs.title.value.level)
  {
    if defs.title.None? then Fail(NoTitle) else ArrayElement(src, t, defs.title.value.level)
  }

  /** `jobType()`: reads the title jobs. */
  function JobType(defs: NameDefs, src: nat -> nat, t: seq<Draw>): (r: Out<string>)
    ensures defs.title.None? ==> r == Fail(NoTitle)
    ensures defs.title.Some? ==> Picks(r, t, defs.title.value.job)
  {
    if defs.title.None? then Fail(NoTitle) else ArrayElement(src, t, defs.title.value.job)
  }

  /** `jobTitle()`: descriptor, area and type joined by
      spaces, evaluated left to right. It reads the same three lists as
      `title` in the same order, so on the same engine it draws and returns
      the same. */
  function JobTitle(defs: NameDefs, src: nat -> nat, t: seq<Draw>): (r: Out<string>)
    ensures r == Title(defs, src, t)
  {
    match JobDescriptor(defs, src, t)
    case Fail(e) => Fail(e)
    case Out(d, t1) =>
      match JobArea(defs, src, t1)
      case Fail(e) => Fail(e)
      case Out(a, t2) =>
        match JobType(defs, src, t2)
        case Fail(e) => Fail(e)
        case Out(j, t3) => Out(d + " " + a + " " + j, t3)
  }

  /** A title is three words, one from each list, in the order descriptor,
      level, job, when no list entry contains a space. */
  lemma TitleWords(defs: NameDefs, src: nat -> nat, t: seq<Draw>)
    requires defs.title.Some?
    requires var td := defs.title.value;
             && (td.descriptor.Some? ==> forall w :: w in td.descriptor.value ==> ' ' !in w)
             && (td.level.Some? ==> forall w :: w in td.level.value ==> ' ' !in w)
             && (td.job.Some? ==> forall w :: w in td.job.value ==> ' ' !in w)
    ensures var r := Title(defs, src, t);
            var td := defs.title.value;
            r.Out? ==>
              && |r.trace| == |t| + 3
              && var ws := Split(r.value, ' ');
                 |ws| == 3 && ws[0] in td.descriptor.value && ws[1] in td.level.value && ws[2] in td.job.value
  {
    var td := defs.title.value;
    var r := Title(defs, src, t);
    if r.Out? {
      var d := ArrayElement(src, t, td.descriptor);
      var l := ArrayElement(src, d.trace, td.level);
      var j := ArrayElement(src, l.trace, td.job);
      ThreeWords(d.value, l.value, j.value);
    }
  }
}

=== FILE: random.dfy ===
/**
 * The random engine as the name generators see it: `number(max)` and
 * `arrayElement(list)`. The engine itself is abstract: `src(i)` is the raw
 * output behind the `i`-th draw, and the state threaded through the
 * generators is the sequence of draws made so far.
 */
module Random {

  datatype Option<T> = None | Some(value: T)

  /** One call `number(max)` that returned `value`. */
  datatype Draw = Draw(max: nat, value: nat)

  /** Why a generator threw. */
  datatype Failure =
    | NoElements   // `arrayElement` on a missing or empty list
    | NoTitle      // reading a list of a missing `title` record

  /** A generator's value and the draws made up to and including its own,
      or the failure it threw. */
  datatype Out<T> = Out(value: T, trace: seq<Draw>) | Fail(failure: Failure)

  /** `number(max)`: a value in `[0, max]`, recorded as the next draw. The
      reduction of the raw output is a stand-in for the engine's own. */
  function Number(src: nat -> nat, t: seq<Draw>, max: nat): (r: (nat, seq<Draw>))
    ensures r.0 <= max
    ensures r.1 == t + [Draw(max, r.0)]
  {
    var v := src(|t|) % (max + 1);
    (v, t + [Draw(max, v)])
  }

  /** A list that is missing or has no elements. */
  predicate Empty(xs: Option<seq<string>>)
  {
    xs.None? || |xs.value| == 0
  }

  /** `arrayElement(xs)`: the element at an index drawn with
      `number(|xs| - 1)`. A missing or empty list fails without drawing. */
  function ArrayElement(src: nat -> nat, t: seq<Draw>, xs: Option<seq<string>>): (r: Out<string>)
    ensures r.Fail? <==> Empty(xs)
    ensures r.Fail? ==> r.failure == NoElements
    ensures r.Out? ==> |r.trace| == |t| + 1 && r.trace[..|t|] == t
                       && r.trace[|t|].max == |xs.value| - 1 && r.trace[|t|].value < |xs.value|
                       && r.value == xs.value[r.trace[|t|].value]
  {
    if Empty(xs) then Fail(NoElements)
    else
      var (i, t') := Number(src, t, |xs.value| - 1);
      assert t'[..|t|] == t;
      Out(xs.value[i], t')
  }

  /** `w` is an element of the list `xs`, which is present. */
  predicate In(w: string, xs: Option<seq<string>>)
  {
    xs.Some? && w in xs.value
  }

  /** `r` is an element of `xs` picked with one draw after `t`; it fails
      exactly when `xs` is missing or empty. */
  predicate Picks(r: Out<string>, t: seq<Draw>, xs: Option<seq<string>>)
  {
    && (r.Fail? <==> Empty(xs))
    && (r.Out? ==> In(r.value, xs) && |r.trace| == |t| + 1 && r.trace[..|t|] == t)
  }

  /** Draws are only ever appended: the earlier draws are a prefix of the
      later ones. */
  predicate Extends(t: seq<Draw>, t': seq<Draw>)
  {
    |t| <= |t'| && t'[..|t|] == t
  }

  lemma ExtendsTrans(t1: seq<Draw>, t2: seq<Draw>, t3: seq<Draw>)
    requires Extends(t1, t2) && Extends(t2, t3)
    ensures Extends(t1, t3)
  {
    assert t3[..|t1|] == t3[..|t2|][..|t1|];
  }
}

=== FILE: strings.dfy ===
/**
 * The JavaScript string primitives the template interpolator relies on:
 * search for a literal pattern, `substr`, first-occurrence `replace` with a
 * string pattern, and `split` on a one-character separator.
 */
module JsStrings {

  /** `pat` occurs in `s` starting at index `i`. */
  predicate OccursAt(s: string, pat: string, i: int)
  {
    0 <= i && i + |pat| <= |s| && s[i..i + |pat|] == pat
  }

  /** Index of the first occurrence of `pat` in `s`, or -1 when there is none
      (`String.prototype.indexOf`, and `search` with a pattern that has no
      regular-expression meta-characters in effect). */
  function IndexOf(s: string, pat: string): (r: int)
    ensures -1 <= r <= |s|
    ensures r >= 0 ==> OccursAt(s, pat, r)
    ensures forall i :: 0 <= i && (r == -1 || i < r) ==> !OccursAt(s, pat, i)
  {
    IndexFrom(s, pat, 0)
  }

  /** First occurrence of `pat` in `s` at or after `from`. */
  function IndexFrom(s: string, pat: string, from: nat): (r: int)
    ensures r == -1 || (from <= r <= |s| && OccursAt(s, pat, r))
    ensures forall i :: from <= i && (r == -1 || i < r) ==> !OccursAt(s, pat, i)
    decreases |s| + 1 - from
  {
    if from + |pat| > |s| then -1
    else if s[from..from + |pat|] == pat then from
    else IndexFrom(s, pat, from + 1)
  }

  /** A first occurrence is where `IndexOf` finds it. */
  lemma IndexOfFirstOccurrence(s: string, pat: string, k: int)
    requires OccursAt(s, pat, k)
    requires forall i :: 0 <= i < k ==> !OccursAt(s, pat, i)
    ensures IndexOf(s, pat) == k
  {
  }

  /** An occurrence begins with the pattern's first character. */
  lemma OccurrenceStartsWith(s: string, pat: string, i: int)
    requires |pat| > 0
    ensures OccursAt(s, pat, i) ==> s[i] == pat[0]
  {
    if OccursAt(s, pat, i) {
      assert s[i..i + |pat|][0] == s[i];
    }
  }

  /** Where a pattern occurs, so does each of its prefixes. */
  lemma OccursPrefix(s: string, pat: string, n: nat, i: int)
    requires n <= |pat| && OccursAt(s, pat, i)
    ensures OccursAt(s, pat[..n], i)
  {
    assert s[i..i + n] == s[i..i + |pat|][..n];
  }

  /** No occurrence starts before `k` when the first character of `pat`
      appears nowhere before `k`. */
  lemma NoEarlierOccurrence(s: string, pat: string, k: int)
    requires |pat| > 0
    requires forall i :: 0 <= i < k && i < |s| ==> s[i] != pat[0]
    ensures forall i :: 0 <= i < k ==> !OccursAt(s, pat, i)
  {
    forall i | 0 <= i < k
      ensures !OccursAt(s, pat, i)
    {
      OccurrenceStartsWith(s, pat, i);
    }
  }

  /** A two-character pattern occurs where its two characters follow each
      other. */
  lemma OccursPair(s: string, pat: string, i: int)
    requires |pat| == 2
    ensures OccursAt(s, pat, i) <==> 0 <= i && i + 1 < |s| && s[i] == pat[0] && s[i + 1] == pat[1]
  {
    if 0 <= i && i + 1 < |s| {
      assert s[i..i + 2] == [s[i], s[i + 1]];
    }
  }

  /** A doubled character `cc` that does not occur in `p` does not occur
      in `a + p + b` either when `c` is in neither `a` nor `b`. */
  lemma PairAbsent(a: string, p: string, b: string, pat: string)
    requires |pat| == 2 && pat[0] == pat[1]
    requires pat[0] !in a && pat[0] !in b
    requires IndexOf(p, pat) == -1
    ensures IndexOf(a + p + b, pat) == -1
  {
    var s := a + p + b;
    forall i | 0 <= i
      ensures !OccursAt(s, pat, i)
    {
      OccursPair(s, pat, i);
      if i + 1 < |s| {
        if i < |a| {
          assert s[i] == a[i];
        } else if i + 1 < |a| + |p| {
          OccursPair(p, pat, i - |a|);
          assert s[i] == p[i - |a|] && s[i + 1] == p[i + 1 - |a|];
        } else if i + 1 == |a| + |p| {
          assert s[i + 1] == b[0];
        } else {
          assert s[i] == b[i - |a| - |p|];
        }
      }
    }
  }

  /** A pattern whose first character appears nowhere in `s` does not occur. */
  lemma AbsentFirstChar(s: string, pat: string)
    requires |pat| > 0
    requires forall i :: 0 <= i < |s| ==> s[i] != pat[0]
    ensures IndexOf(s, pat) == -1
  {
    NoEarlierOccurrence(s, pat, |s| + 1);
  }

  function Min(a: int, b: int): int { if a <= b then a else b }
  function Max(a: int, b: int): int { if a >= b then a else b }

  /** `String.prototype.substr(start, length)`: a negative start counts from
      the end, the start is clamped into the string, a negative length gives
      the empty string and the length is clamped to what remains. */
  function Substr(s: string, start: int, length: int): (r: string)
    ensures 0 <= start && 0 <= length && start + length <= |s| ==> r == s[start..start + length]
    ensures length <= 0 ==> r == ""
    ensures |r| <= |s|
  {
    var from := if start < 0 then Max(|s| + start, 0) else Min(start, |s|);
    var len := Min(Max(length, 0), |s| - from);
    s[from..from + len]
  }

  /** `s.replace(pat, rep)` with a string pattern: the first occurrence of
      `pat` is replaced by `rep`; without an occurrence `s` is returned. The
      replacement text is inserted literally. */
  function ReplaceFirst(s: string, pat: string, rep: string): (r: string)
    ensures IndexOf(s, pat) == -1 ==> r == s
    ensures IndexOf(s, pat) >= 0 ==> |r| == |s| - |pat| + |rep|
  {
    var k := IndexOf(s, pat);
    if k == -1 then s else s[..k] + rep + s[k + |pat|..]
  }

  /** Replacing the first occurrence keeps everything before and after it. */
  lemma ReplaceFirstAt(s: string, pat: string, rep: string, k: int)
    requires OccursAt(s, pat, k)
    requires forall i :: 0 <= i < k ==> !OccursAt(s, pat, i)
    ensures ReplaceFirst(s, pat, rep) == s[..k] + rep + s[k + |pat|..]
  {
    IndexOfFirstOccurrence(s, pat, k);
  }

  /** Number of occurrences of `c` in `s`. */
  function CountChar(s: string, c: char): nat
  {
    if |s| == 0 then 0 else (if s[0] == c then 1 else 0) + CountChar(s[1..], c)
  }

  /** `parts.join(sep)`. */
  function Join(parts: seq<string>, sep: char): string
  {
    if |parts| == 0 then ""
    else if |parts| == 1 then parts[0]
    else parts[0] + [sep] + Join(parts[1..], sep)
  }

  /** `s.split(sep)` for a one-character separator: the maximal
      separator-free pieces, one more than there are separators. */
  function Split(s: string, sep: char): (parts: seq<string>)
    ensures |parts| == CountChar(s, sep) + 1
    ensures forall i :: 0 <= i < |parts| ==> sep !in parts[i]
    ensures Join(parts, sep) == s
  {
    if |s| == 0 then [""]
    else
      var rest := Split(s[1..], sep);
      if s[0] == sep then
        assert ([""] + rest)[1..] == rest;
        assert s == [sep] + s[1..];
        [""] + rest
      else
        var parts := [[s[0]] + rest[0]] + rest[1..];
        assert parts[1..] == rest[1..];
        assert s == [s[0]] + s[1..];
        assert forall i :: 1 <= i < |parts| ==> parts[i] == rest[i];
        assert sep !in [s[0]] + rest[0] by {
          assert sep !in rest[0];
        }
        parts
  }

  /** Where the first separator of a join lies: nowhere in a single piece,
      right after the first piece otherwise. */
  lemma JoinFirstSeparator(ps: seq<string>, sep: char)
    requires |ps| >= 1
    requires forall i :: 0 <= i < |ps| ==> sep !in ps[i]
    ensures |ps| == 1 ==> IndexOf(Join(ps, sep), [sep]) == -1
    ensures |ps| >= 2 ==> IndexOf(Join(ps, sep), [sep]) == |ps[0]|
  {
    var a := Join(ps, sep);
    if |ps| == 1 {
      AbsentFirstChar(a, [sep]);
    } else {
      assert a == ps[0] + [sep] + Join(ps[1..], sep);
      NoEarlierOccurrence(a, [sep], |ps[0]|);
      assert a[|ps[0]|..|ps[0]| + 1] == [sep];
      IndexOfFirstOccurrence(a, [sep], |ps[0]|);
    }
  }

  /** The join of separator-free pieces determines the pieces. */
  lemma {:induction false} JoinInjective(ps: seq<string>, qs: seq<string>, sep: char)
    requires |ps| >= 1 && |qs| >= 1
    requires forall i :: 0 <= i < |ps| ==> sep !in ps[i]
    requires forall i :: 0 <= i < |qs| ==> sep !in qs[i]
    requires Join(ps, sep) == Join(qs, sep)
    ensures ps == qs
    decreases |ps|
  {
    JoinFirstSeparator(ps, sep);
    JoinFirstSeparator(qs, sep);
    if |ps| >= 2 && |qs| >= 2 {
      var a := Join(ps, sep);
      assert a == ps[0] + [sep] + Join(ps[1..], sep);
      assert a == qs[0] + [sep] + Join(qs[1..], sep);
      assert ps[0] == a[..|ps[0]|] == qs[0];
      assert Join(ps[1..], sep) == a[|ps[0]| + 1..] == Join(qs[1..], sep);
      JoinInjective(ps[1..], qs[1..], sep);
      assert ps == [ps[0]] + ps[1..];
      assert qs == [qs[0]] + qs[1..];
    }
  }

  /** Splitting a join of separator-free pieces gives the pieces back. */
  lemma SplitJoin(parts: seq<string>, sep: char)
    requires |parts| >= 1
    requires forall i :: 0 <= i < |parts| ==> sep !in parts[i]
    ensures Split(Join(parts, sep), sep) == parts
  {
    JoinInjective(Split(Join(parts, sep), sep), parts, sep);
  }
}

=== FILE: template.dfy ===
/**
 * What `fake` computes on a well-formed template: literal text with
 * `{{body}}` tags, where neither the literal text nor the generators'
 * outputs contain a brace, and a tag body has no `}}` and does not end in
 * `}` (single braces, as in a JSON object parameter, are fine). On such
 * templates the recursive first-tag rewriting of `fake` equals a plain
 * left-to-right expansion that calls one generator per tag, in order.
 */
module Template {
  import opened JsStrings
  import opened Interpolation

  datatype Piece = Literal(text: string) | Tag(body: string)

  /** `s` contains neither `{` nor `}`. */
  predicate BraceFree(s: string)
    decreases |s|
  {
    |s| == 0 || (s[0] != '{' && s[0] != '}' && BraceFree(s[1..]))
  }

  /** `BraceFree` is `Avoids` for the two braces, in the recursive form the
      induction over templates uses. */
  lemma {:induction false} BraceFreeAvoids(s: string)
    ensures BraceFree(s) <==> Avoids(s, {'{', '}'})
    decreases |s|
  {
    if |s| > 0 {
      BraceFreeAvoids(s[1..]);
      assert forall k :: 0 < k < |s| ==> s[k] == s[1..][k - 1];
    }
  }

  /** `b` can stand between `{{` and `}}`: it has no `}}` and does not end
      in `}`, so the first `}}` after `{{b` is the one that closes the tag. */
  predicate TagBody(b: string)
  {
    IndexOf(b, "}}") == -1 && (|b| > 0 ==> b[|b| - 1] != '}')
  }

  /** A brace-free body is a tag body. */
  lemma BraceFreeTagBody(b: string)
    requires BraceFree(b)
    ensures TagBody(b)
  {
    BraceFreeNoDelimiters(b);
    if |b| > 0 {
      BraceFreeAt(b, |b| - 1);
    }
  }

  predicate PlainPiece(p: Piece)
  {
    match p
    case Literal(x) => BraceFree(x)
    case Tag(b) => TagBody(b)
  }

  /** Every literal is free of braces and every tag body is a tag body. */
  predicate Plain(t: seq<Piece>)
    decreases |t|
  {
    |t| == 0 || (PlainPiece(t[0]) && Plain(t[1..]))
  }

  /** Every registered generator's output is free of braces. */
  ghost predicate BraceFreeOutputs<S(!new)>(reg: Registry<S>)
  {
    forall m, f, args, st :: m in reg && f in reg[m] ==> BraceFree(reg[m][f](args, st).text)
  }

  /** The template as a string. */
  function Render(t: seq<Piece>): string
  {
    if |t| == 0 then ""
    else
      (match t[0]
       case Literal(x) => x
       case Tag(b) => "{{" + b + "}}")
      + Render(t[1..])
  }

  /** The bodies of the tags, in order. */
  function Bodies(t: seq<Piece>): seq<string>
  {
    if |t| == 0 then []
    else if t[0].Tag? then [t[0].body] + Bodies(t[1..])
    else Bodies(t[1..])
  }

  /** The generator calls a sequence of tag bodies asks for, in order. */
  function CallsOf(bodies: seq<string>): (calls: seq<Invocation>)
    ensures |calls| == |bodies|
    ensures forall i :: 0 <= i < |bodies| ==> calls[i] == CallOf(bodies[i])
  {
    if |bodies| == 0 then [] else [CallOf(bodies[0])] + CallsOf(bodies[1..])
  }

  /** Every successful resolution produces text without braces. */
  ghost predicate BraceFreeResolutions<S(!new)>(resolve: (string, S) -> Resolution<S>)
  {
    forall b, st :: resolve(b, st).Resolved? ==> BraceFree(resolve(b, st).out.text)
  }

  /** Expands `t` left to right after the already expanded text `acc`,
      resolving each tag body with `resolve` and threading the generator
      state through one call per tag. An empty final text is refused, as
      `fake` refuses the empty string. */
  function ExpandFrom<S(!new)>(resolve: (string, S) -> Resolution<S>, t: seq<Piece>, st: S, acc: string): (r: Result<Expansion<S>>)
    ensures r.Ok? ==> |r.value.calls| == |Bodies(t)|
    ensures r.Ok? && Plain(t) && BraceFree(acc) && BraceFreeResolutions(resolve) ==> BraceFree(r.value.text)
    ensures r.Ok? ==> r.value.text != ""
    decreases |t|
  {
    if |t| == 0 then
      if acc == "" then Err(StringRequired) else Ok(Expansion(acc, st, []))
    else
      TemplateTail(t);
      match t[0]
      case Literal(x) =>
        assert Plain(t) && BraceFree(acc) ==> BraceFree(acc + x) by {
          if Plain(t) && BraceFree(acc) {
            assert PlainPiece(t[0]);
            BraceFreeConcat(acc, x);
          }
        }
        ExpandFrom(resolve, t[1..], st, acc + x)
      case Tag(b) =>
        match resolve(b, st)
        case Unresolved(e) => Err(e)
        case Resolved(call, out) =>
          assert BraceFree(acc) && BraceFreeResolutions(resolve) ==> BraceFree(acc + out.text) by {
            if BraceFree(acc) && BraceFreeResolutions(resolve) {
              BraceFreeConcat(acc, out.text);
            }
          }
          After(call, ExpandFrom(resolve, t[1..], out.state, acc + out.text))
  }

  /** The reference expansion of a whole template against a registry. */
  function Expand<S(!new)>(reg: Registry<S>, t: seq<Piece>, st: S): Result<Expansion<S>>
  {
    ExpandFrom(ResolverOf(reg), t, st, "")
  }

  /** Against a registry, the expansion calls exactly the generators the
      tag bodies ask for, in order, and never runs out of fuel. */
  lemma {:induction false} ExpandCalls<S(!new)>(reg: Registry<S>, t: seq<Piece>, st: S, acc: string)
    ensures var r := ExpandFrom(ResolverOf(reg), t, st, acc);
            && (r.Ok? ==> r.value.calls == CallsOf(Bodies(t)))
            && (r.Err? ==> r.error != OutOfFuel)
    decreases |t|
  {
    if |t| > 0 {
      TemplateTail(t);
      match t[0]
      case Literal(x) =>
        ExpandCalls(reg, t[1..], st, acc + x);
      case Tag(b) =>
        var res := Resolve(reg, b, st);
        if res.Resolved? {
          ExpandCalls(reg, t[1..], res.out.state, acc + res.out.text);
          assert CallsOf([b] + Bodies(t[1..])) == [CallOf(b)] + CallsOf(Bodies(t[1..])) by {
            assert ([b] + Bodies(t[1..]))[1..] == Bodies(t[1..]);
          }
        }
    }
  }

  /** Generators with brace-free outputs resolve to brace-free text. */
  lemma ResolutionsBraceFree<S(!new)>(reg: Registry<S>)
    requires BraceFreeOutputs(reg)
    ensures BraceFreeResolutions(ResolverOf(reg))
  {
    forall b, st | ResolverOf(reg)(b, st).Resolved?
      ensures BraceFree(ResolverOf(reg)(b, st).out.text)
    {
      var c := CallOf(b);
      OutputBraceFree(reg, c.moduleName, c.methodName, c.args, st);
    }
  }

  /** No character of brace-free text is a brace. */
  lemma {:induction false} BraceFreeAt(s: string, i: int)
    requires BraceFree(s) && 0 <= i < |s|
    ensures s[i] != '{' && s[i] != '}'
    decreases i
  {
    if i > 0 {
      BraceFreeAt(s[1..], i - 1);
    }
  }

  /** Text without braces has no tag delimiters. */
  lemma BraceFreeNoDelimiters(s: string)
    requires BraceFree(s)
    ensures NoDelimiters(s)
  {
    forall i | 0 <= i < |s|
      ensures s[i] != '{' && s[i] != '}'
    {
      BraceFreeAt(s, i);
    }
    AbsentFirstChar(s, "{{");
    AbsentFirstChar(s, "}}");
  }

  lemma OutputBraceFree<S(!new)>(reg: Registry<S>, m: string, f: string, args: seq<Arg>, st: S)
    requires BraceFreeOutputs(reg) && m in reg && f in reg[m]
    ensures BraceFree(reg[m][f](args, st).text)
  {
  }

  lemma {:induction false} BraceFreeConcat(a: string, b: string)
    requires BraceFree(a) && BraceFree(b)
    ensures BraceFree(a + b)
    decreases |a|
  {
    if |a| == 0 {
      assert a + b == b;
    } else {
      assert (a + b)[1..] == a[1..] + b;
      BraceFreeConcat(a[1..], b);
    }
  }

  lemma TemplateTail(t: seq<Piece>)
    requires |t| > 0
    ensures Plain(t) ==> Plain(t[1..]) && PlainPiece(t[0])
    ensures t[0].Literal? ==> Render(t) == t[0].text + Render(t[1..]) && Bodies(t) == Bodies(t[1..])
    ensures t[0].Tag? ==> Render(t) == "{{" + t[0].body + "}}" + Render(t[1..]) && Bodies(t) == [t[0].body] + Bodies(t[1..])
  {
  }

  /** `acc`, then the tag `{{b}}`, then `rest`. */
  function Tagged(acc: string, b: string, rest: string): string
  {
    acc + "{{" + b + "}}" + rest
  }

  /** What one step of `fake` is meant to do with `Tagged(acc, b, rest)`:
      resolve `b` and, when that succeeds, put the generator's output in
      place of the tag. */
  function TagStep<S>(resolve: (string, S) -> Resolution<S>, acc: string, b: string, rest: string, st: S): Step<S>
  {
    match resolve(b, st)
    case Unresolved(e) => Stuck(e)
    case Resolved(call, out) => Next(acc + out.text + rest, out.state, call)
  }

  /** `step` leaves brace-free text alone and treats the first tag of a
      string as `TagStep` says whenever the text before the tag is free of
      braces and the tag's body is a tag body. */
  ghost predicate StepsTags<S(!new)>(resolve: (string, S) -> Resolution<S>, step: (string, S) -> Step<S>)
  {
    && (forall s, st :: BraceFree(s) ==> step(s, st) == Done)
    && (forall acc, b, rest, st :: BraceFree(acc) && TagBody(b) ==> step(Tagged(acc, b, rest), st) == TagStep(resolve, acc, b, rest, st))
  }

  /** In `Tagged(acc, b, rest)` the first `{{` is right after `acc`. */
  lemma TagOpens(acc: string, b: string, rest: string)
    requires BraceFree(acc)
    ensures IndexOf(Tagged(acc, b, rest), "{{") == |acc|
  {
    var str := Tagged(acc, b, rest);
    assert OccursAt(str, "{{", |acc|) by {
      assert str[|acc|..|acc| + 2] == "{{";
    }
    assert forall i :: 0 <= i < |acc| ==> !OccursAt(str, "{{", i) by {
      forall i | 0 <= i < |acc|
        ensures str[i] != '{'
      {
        BraceFreeAt(acc, i);
      }
      NoEarlierOccurrence(str, "{{", |acc|);
    }
    IndexOfFirstOccurrence(str, "{{", |acc|);
  }

  /** The characters of `Tagged(acc, b, rest)` up to the closing `}}`. */
  lemma TaggedChars(acc: string, b: string, rest: string)
    ensures var str := Tagged(acc, b, rest);
            && (forall i :: 0 <= i < |acc| ==> str[i] == acc[i])
            && str[|acc|] == '{' && str[|acc| + 1] == '{'
            && (forall j :: 0 <= j < |b| ==> str[|acc| + 2 + j] == b[j])
            && str[|acc| + 2 + |b|] == '}' && str[|acc| + 2 + |b| + 1] == '}'
  {
  }

  /** In `Tagged(acc, b, rest)` the first `}}` is right after `b`. */
  lemma TagCloses(acc: string, b: string, rest: string)
    requires BraceFree(acc) && TagBody(b)
    ensures IndexOf(Tagged(acc, b, rest), "}}") == |acc| + 2 + |b|
  {
    var str := Tagged(acc, b, rest);
    var k := |acc| + 2 + |b|;
    TaggedChars(acc, b, rest);
    OccursPair(str, "}}", k);
    forall i | 0 <= i < k
      ensures !OccursAt(str, "}}", i)
    {
      OccursPair(str, "}}", i);
      if i < |acc| {
        BraceFreeAt(acc, i);
      } else if i >= |acc| + 2 {
        var j := i - |acc| - 2;
        OccursPair(b, "}}", j);
        assert str[i] == b[j];
        if j + 1 < |b| {
          assert str[i + 1] == b[j + 1];
        }
      }
    }
    IndexOfFirstOccurrence(str, "}}", k);
  }

  /** `acc`, `b` and `rest` can be cut back out of `Tagged(acc, b, rest)`. */
  lemma TagParts(acc: string, b: string, rest: string)
    ensures var str := Tagged(acc, b, rest);
            && str[..|acc|] == acc && str[|acc| + 2..|acc| + 2 + |b|] == b
            && str[|acc| + 2 + |b| + 2..] == rest
  {
  }

  /** One rewriting step of `fake` does with a tag what `TagStep` says. */
  lemma RewriteTag<S>(resolve: (string, S) -> Resolution<S>, acc: string, b: string, rest: string, st: S)
    requires BraceFree(acc) && TagBody(b)
    ensures Rewrite(resolve, Tagged(acc, b, rest), st) == TagStep(resolve, acc, b, rest, st)
  {
    var str := Tagged(acc, b, rest);
    TagOpens(acc, b, rest);
    TagCloses(acc, b, rest);
    TagParts(acc, b, rest);
    if resolve(b, st).Unresolved? {
      StuckStep(resolve, str, st, |acc|, |acc| + 2 + |b|, b);
    } else {
      NextStep(resolve, str, st, |acc|, |acc| + 2 + |b|, b);
    }
  }

  /** The rewriting step of `fake` leaves brace-free text alone and treats
      tags as `TagStep` says. */
  lemma RewriterStepsTags<S(!new)>(reg: Registry<S>)
    ensures StepsTags(ResolverOf(reg), Rewriter(reg))
  {
    forall s, st | BraceFree(s)
      ensures Rewriter(reg)(s, st) == Done
    {
      BraceFreeNoDelimiters(s);
    }
    forall acc, b, rest, st | BraceFree(acc) && TagBody(b)
      ensures Rewriter(reg)(Tagged(acc, b, rest), st) == TagStep(ResolverOf(reg), acc, b, rest, st)
    {
      RewriteTag(ResolverOf(reg), acc, b, rest, st);
    }
  }

  /** A step that treats tags as `TagStep` says, applied to a tag. */
  lemma StepAt<S(!new)>(resolve: (string, S) -> Resolution<S>, step: (string, S) -> Step<S>, acc: string, b: string, rest: string, st: S)
    requires StepsTags(resolve, step) && BraceFree(acc) && TagBody(b)
    ensures step(Tagged(acc, b, rest), st) == TagStep(resolve, acc, b, rest, st)
  {
  }

  /** The iteration on a string whose first tag does not resolve fails
      with the resolution's error. */
  lemma IterateStuckTag<S(!new)>(resolve: (string, S) -> Resolution<S>, step: (string, S) -> Step<S>, acc: string, b: string, rest: string, st: S, fuel: nat)
    requires StepsTags(resolve, step) && BraceFree(acc) && TagBody(b)
    requires resolve(b, st).Unresolved?
    ensures Iterate(step, StringInput(Tagged(acc, b, rest)), st, fuel) == Err(resolve(b, st).error)
  {
    StepAt(resolve, step, acc, b, rest, st);
  }

  /** The iteration on a string whose first tag resolves makes that call
      and goes on with `acc`, the generator's output and `rest`. */
  lemma IterateNextTag<S(!new)>(resolve: (string, S) -> Resolution<S>, step: (string, S) -> Step<S>, acc: string, b: string, rest: string, st: S, fuel: nat)
    requires StepsTags(resolve, step) && BraceFree(acc) && TagBody(b) && fuel > 0
    requires resolve(b, st).Resolved?
    ensures var res := resolve(b, st);
            Iterate(step, StringInput(Tagged(acc, b, rest)), st, fuel)
            == After(res.call, Iterate(step, StringInput(acc + res.out.text + rest), res.out.state, fuel - 1))
  {
    StepAt(resolve, step, acc, b, rest, st);
  }

  /** A template starting with a tag, rendered after `acc`, is that tag
      after `acc`, followed by the rendering of the tail. */
  lemma RenderTag(t: seq<Piece>, acc: string)
    requires |t| > 0 && t[0].Tag?
    ensures acc + Render(t) == Tagged(acc, t[0].body, Render(t[1..]))
  {
    TemplateTail(t);
  }

  /** Iterating a step that treats tags as `TagStep` says, on `acc`
      followed by a template, performs exactly the reference expansion,
      given one unit of fuel per remaining tag. */
  lemma {:induction false} IterateExpandsFrom<S(!new)>(resolve: (string, S) -> Resolution<S>, step: (string, S) -> Step<S>, t: seq<Piece>, st: S, acc: string, fuel: nat)
    requires StepsTags(resolve, step) && BraceFreeResolutions(resolve)
    requires Plain(t) && BraceFree(acc)
    requires fuel >= |Bodies(t)|
    ensures Iterate(step, StringInput(acc + Render(t)), st, fuel) == ExpandFrom(resolve, t, st, acc)
    decreases |t|, 1
  {
    if |t| == 0 {
      assert acc + Render(t) == acc;
    } else {
      TemplateTail(t);
      if t[0].Tag? && resolve(t[0].body, st).Unresolved? {
        IterateExpandsStuckTag(resolve, step, t, st, acc, fuel);
      } else if t[0].Tag? {
        IterateExpandsNextTag(resolve, step, t, st, acc, fuel);
      } else {
        IterateExpandsText(resolve, step, t, st, acc, fuel);
      }
    }
  }

  /** The step case of `IterateExpandsFrom` where the template starts with
      literal text: the text joins `acc` and the rest is expanded after it. */
  lemma {:induction false} IterateExpandsText<S(!new)>(resolve: (string, S) -> Resolution<S>, step: (string, S) -> Step<S>, t: seq<Piece>, st: S, acc: string, fuel: nat)
    requires StepsTags(resolve, step) && BraceFreeResolutions(resolve)
    requires |t| > 0 && t[0].Literal? && Plain(t) && BraceFree(acc)
    requires fuel >= |Bodies(t)|
    ensures Iterate(step, StringInput(acc + Render(t)), st, fuel) == ExpandFrom(resolve, t, st, acc)
    decreases |t|, 0
  {
    TemplateTail(t);
    var x := t[0].text;
    assert acc + Render(t) == (acc + x) + Render(t[1..]);
    BraceFreeConcat(acc, x);
    IterateExpandsFrom(resolve, step, t[1..], st, acc + x, fuel);
  }

  /** The step case of `IterateExpandsFrom` where the template starts with
      a tag that does not resolve: both stop with the same error. */
  lemma IterateExpandsStuckTag<S(!new)>(resolve: (string, S) -> Resolution<S>, step: (string, S) -> Step<S>, t: seq<Piece>, st: S, acc: string, fuel: nat)
    requires StepsTags(resolve, step)
    requires |t| > 0 && t[0].Tag? && resolve(t[0].body, st).Unresolved?
    requires BraceFree(acc) && TagBody(t[0].body)
    ensures Iterate(step, StringInput(acc + Render(t)), st, fuel) == ExpandFrom(resolve, t, st, acc)
  {
    RenderTag(t, acc);
    IterateStuckTag(resolve, step, acc, t[0].body, Render(t[1..]), st, fuel);
  }

  /** The step case of `IterateExpandsFrom` where the template starts with
      a tag that resolves: the step rewrites exactly that tag, then the
      iteration goes on like the expansion of the rest. */
  lemma {:induction false} IterateExpandsNextTag<S(!new)>(resolve: (string, S) -> Resolution<S>, step: (string, S) -> Step<S>, t: seq<Piece>, st: S, acc: string, fuel: nat)
    requires StepsTags(resolve, step) && BraceFreeResolutions(resolve)
    requires |t| > 0 && t[0].Tag? && resolve(t[0].body, st).Resolved?
    requires Plain(t[1..]) && BraceFree(acc) && TagBody(t[0].body)
    requires fuel >= |Bodies(t[1..])| + 1
    ensures Iterate(step, StringInput(acc + Render(t)), st, fuel) == ExpandFrom(resolve, t, st, acc)
    decreases |t|, 0
  {
    var res := resolve(t[0].body, st);
    IterateTemplateTag(resolve, step, t, st, acc, fuel);
    BraceFreeConcat(acc, res.out.text);
    IterateExpandsFrom(resolve, step, t[1..], res.out.state, acc + res.out.text, fuel - 1);
  }

  /** A template starting with a tag that resolves: the iteration makes
      that call and goes on with the output in place of the tag. */
  lemma IterateTemplateTag<S(!new)>(resolve: (string, S) -> Resolution<S>, step: (string, S) -> Step<S>, t: seq<Piece>, st: S, acc: string, fuel: nat)
    requires StepsTags(resolve, step)
    requires |t| > 0 && t[0].Tag? && resolve(t[0].body, st).Resolved?
    requires BraceFree(acc) && TagBody(t[0].body) && fuel > 0
    ensures var res := resolve(t[0].body, st);
            Iterate(step, StringInput(acc + Render(t)), st, fuel)
            == After(res.call, Iterate(step, StringInput((acc + res.out.text) + Render(t[1..])), res.out.state, fuel - 1))
  {
    var res := resolve(t[0].body, st);
    RenderTag(t, acc);
    IterateNextTag(resolve, step, acc, t[0].body, Render(t[1..]), st, fuel);
    assert acc + res.out.text + Render(t[1..]) == (acc + res.out.text) + Render(t[1..]);
  }

  /** `fake` on a well-formed template equals its reference expansion. */
  lemma FakeExpandsTemplate<S(!new)>(reg: Registry<S>, t: seq<Piece>, st: S, fuel: nat)
    requires Plain(t) && BraceFreeOutputs(reg)
    requires fuel >= |Bodies(t)|
    ensures Fake(reg, StringInput(Render(t)), st, fuel) == Expand(reg, t, st)
  {
    assert "" + Render(t) == Render(t);
    RewriterStepsTags(reg);
    ResolutionsBraceFree(reg);
    IterateExpandsFrom(ResolverOf(reg), Rewriter(reg), t, st, "", fuel);
  }

  /** A tag body `m.f(p)` with parameter text `p`, a JSON object say, is a
      tag body: its own `}}` closes the tag. */
  lemma TokenTextTagBody(m: string, f: string, p: string)
    requires Avoids(m, {'.', '(', ')', '{', '}'}) && Avoids(f, {'.', '(', ')', '{', '}'})
    requires ParameterText(p)
    ensures TagBody(TokenText(m, f, p))
  {
    var name := m + "." + f;
    var token := TokenText(m, f, p);
    TokenTextNoDelimiters(m, f, p);
    if p == "" {
      assert token == name && token[|token| - 1] == name[|name| - 1];
      assert Avoids(name, {'{', '}'});
    } else {
      assert token == name + "(" + p + ")";
    }
  }

  /** `fake` on a string whose first tag asks for `m.f(p)` fails with the
      lookup error of that tag, whatever follows it: "Invalid module: m" for
      an unknown module, "Invalid method: m.f" for an unknown method of a
      known module. */
  lemma FakeLookupErrors<S(!new)>(reg: Registry<S>, acc: string, m: string, f: string, p: string, rest: string, st: S, fuel: nat)
    requires BraceFree(acc)
    requires Avoids(m, {'.', '(', ')', '{', '}'}) && Avoids(f, {'.', '(', ')', '{', '}'})
    requires ParameterText(p)
    ensures var r := Fake(reg, StringInput(Tagged(acc, TokenText(m, f, p), rest)), st, fuel);
            m !in reg ==> r == Err(InvalidModule(m)) && Message(r.error) == "Invalid module: " + m
    ensures var r := Fake(reg, StringInput(Tagged(acc, TokenText(m, f, p), rest)), st, fuel);
            m in reg && f !in reg[m] ==> r == Err(InvalidMethod(m, f)) && Message(r.error) == "Invalid method: " + m + "." + f
  {
    var b := TokenText(m, f, p);
    TokenTextTagBody(m, f, p);
    ResolveTokenText(reg, m, f, p, st);
    if m !in reg || f !in reg[m] {
      RewriterStepsTags(reg);
      IterateStuckTag(ResolverOf(reg), Rewriter(reg), acc, b, rest, st, fuel);
    }
  }

  /** Consequently, `fake` on a well-formed template makes one generator
      call per tag, in template order, and returns text without braces; it
      fails only with a lookup error or, when everything expands to the
      empty string, with "string parameter is required!". */
  lemma FakeTemplateCalls<S(!new)>(reg: Registry<S>, t: seq<Piece>, st: S, fuel: nat)
    requires Plain(t) && BraceFreeOutputs(reg)
    requires fuel >= |Bodies(t)|
    ensures var r := Fake(reg, StringInput(Render(t)), st, fuel);
            && (r.Ok? ==> r.value.calls == CallsOf(Bodies(t)) && BraceFree(r.value.text))
            && (r.Err? ==> r.error != OutOfFuel)
  {
    FakeExpandsTemplate(reg, t, st, fuel);
    ExpandCalls(reg, t, st, "");
    ResolutionsBraceFree(reg);
  }
}
